=== FILE: README.md ===
# Study tracker core in Dafny

A model of the client-side logic of a single-page study tracker for exam
candidates. The application renders a dashboard, a focus timer, a
computer-based test, and a vocabulary trainer. Persistence goes to a remote
document store, and content comes from a generative-language API. Neither is
modelled. What is modelled is the logic that runs in the browser around them:

- **Focus mode** (`focus.dfy`, `schedule.dfy`):
  - which task the timer runs for (a library video, then a custom task, then the
    selected schedule block, whose remaining minutes never drop below five);
  - the timer's tick, pause and expiry;
  - the start button's link validation;
  - visibility breaches (pause and -2);
  - what `completeSession` computes: minutes spent, the discipline change
    (-5 / +1 / 0), the block update and the session record.
- **Test mode** (`test_mode.dfy`):
  - the per-index answer map, frozen after submission;
  - the countdown that submits at zero;
  - visibility breaches (-5);
  - clamped navigation;
  - `===` scoring, where an unanswered question without a correct index scores;
  - the bilingual fallback for the question text, the options and the explanation.
- **Helpers**:
  - `getYoutubeId` (`youtube.dfy`), the anchored link pattern written out
    alternative by alternative;
  - the greedy bracket-span prefilter and `safeJSONParse` with its code-fence
    clean-up (`extract.dfy`), where `JSON.parse` is a parameter;
  - wrapping a generated plan into a schedule (`schedule.dfy`);
  - the vocabulary merge and de-duplication, and the vocabulary test length (`vocab.dfy`);
  - `formatTime` and the hours/minutes/seconds split (`clock.dfy`);
  - the JavaScript string behaviour these rely on (`js.dfy`): truthiness,
    `trim` with the full ECMAScript whitespace set, and ASCII `toLowerCase`.

State is kept in immutable datatypes. Every event is a pure function returning
the new state and, where the source writes a score increment, the increment
as an integer delta. Missing JSON fields are `Option`s. Text is truthy when it
is present and non-empty. An array is truthy whenever it is present.

The code's own comment at `src/App.jsx:1396` says a block is completed only
once the time spent reaches its target. The model states this as
`Schedule.Exact` (completed exactly when the minutes done reach the target).
`Exact` holds after every recorded session. It does not hold for a freshly
wrapped block whose duration is zero or negative, which starts pending
although its target is already met. So `Schedule.Wrap` promises `Exact` only
for positive durations, and `Schedule.CompleteBlock` preserves it from then on.

## Model

| member | source | states |
|---|---|---|
| Js.Trim | src/App.jsx:1267 | The result has no surrounding whitespace. The input is the result with all-whitespace text on either side. The result is empty exactly when the input is all whitespace. |
| Js.TrimIdempotent | src/App.jsx:1267 | Trimming twice is trimming once. |
| Js.TrimmedIsFixed | src/App.jsx:91 | A string without surrounding whitespace is returned unchanged. |
| Js.Lower | src/App.jsx:1668 | Same length; each letter `A`-`Z` is mapped to its lower-case form and every other character is kept. |
| Clock.Decimal | src/App.jsx:898 | `toString` of a non-negative integer: at least one digit, all digits, no leading zero, at most two digits below 100. |
| Clock.DecimalRoundTrip | src/App.jsx:898 | The digits read back as the number they render. |
| Clock.Pad2 | src/App.jsx:898 | `padStart(2, '0')` keeps the value and gives at least two digits. |
| Clock.FormatTime | src/App.jsx:895-899 | `m…m:ss` shape: digits, a colon, then exactly two digits. The digits before the colon denote `seconds / 60` and the two after it `seconds % 60`. |
| Clock.FormatTimeRoundTrip | src/App.jsx:895-899 | Reading a rendering back gives the same number of seconds. |
| Clock.JsRem | src/App.jsx:1458-1459 | JavaScript `%` by a positive divisor: `a == b · trunc(a / b) + r`, with `r` in `[0, b)` for a non-negative dividend and in `(-b, 0]` for a negative one. |
| Clock.ClockParts | src/App.jsx:1457-1459 | For a non-negative time, `3600·h + 60·m + s` is the time, with minutes and seconds in `0..59`. |
| YouTube.IdAt | src/App.jsx:1266 | A match is 11 id characters at the start, followed only by an optional `?`/`&` query without a line break. |
| YouTube.WatchSearch | src/App.jsx:1266 | The `watch?…&v=` alternative yields only a well-formed id. |
| YouTube.ComPath | src/App.jsx:1266 | Any path alternative after `youtube.com/` yields only a well-formed id. |
| YouTube.HostPath | src/App.jsx:1266 | `youtu.be/` or `youtube.com/` paths yield only a well-formed id. |
| YouTube.MatchLink | src/App.jsx:1266-1268 | The anchored pattern yields only a well-formed id, and only on inputs of at least 20 characters. |
| YouTube.GetYoutubeId | src/App.jsx:1264-1269 | Any result is exactly 11 characters from `[A-Za-z0-9_-]`. Empty or all-whitespace input gives none. |
| YouTube.GetYoutubeIdShape | src/App.jsx:1264-1269 | Conversely, every id comes from a recognised link. The trimmed input is an optional scheme, an optional `www.`/`m.`, a direct path or `youtube.com/watch?<params>&v=`, the id, and an optional `?`/`&` query. Any other string gives none. |
| YouTube.TrimInvariant | src/App.jsx:1267 | Surrounding whitespace never changes the outcome. |
| YouTube.DirectLinkRecognised | src/App.jsx:1266 | Any scheme (or none), `www.`/`m.` (or none), a direct path (`youtu.be/`, `embed/`, `v/`, `watch?v=`, `shorts/`, `live/`), an id and an optional `?`/`&` query give exactly that id. The lemma takes a query that does not end in whitespace; trailing whitespace is covered by `TrimInvariant`, since the input is trimmed first. |
| YouTube.WatchLinkRecognised | src/App.jsx:1266 | `youtube.com/watch?<params>&v=<id>` gives that id when the parameters are non-empty, free of line breaks and do not start with `v=` (so `watch?vq=hd720&v=<id>` is covered). This holds with or without a trailing query free of `&v=`. An earlier `&v=` inside the parameters loses to the last one. |
| YouTube.FirstWatchParamWins | src/App.jsx:1266 | Parameters that start with `v=` are the other case: `youtube.com/watch?v=<a>&v=<b>`, with or without a further query, gives `a`. The `watch?v=` alternative comes before `watch?.+&v=` in the pattern. |
| YouTube.QueryKeepsId | src/App.jsx:1266-1268 | Appending a `?…`/`&…` query to a recognised link keeps the id, provided the query contains no `&v=` and does not end in whitespace. |
| YouTube.LaterWatchParamWins | src/App.jsx:1266 | That proviso is needed: on `youtube.com/watch?<params>&v=<a>` an appended `&v=<b>` makes the result `b`, because `.+` is greedy. |
| Extract.GreedySpan | src/App.jsx:448 | A match begins with the opener, ends with the closer, has at least two characters and lies within the text. |
| Extract.GreedySpanIsLeftmostLongest | src/App.jsx:448 | No match exactly when no opener precedes a closer. Otherwise the result is the leftmost match, and among the matches starting there the longest. |
| Extract.GreedySpanIdempotent | src/App.jsx:652 | Applying the prefilter to its own output changes nothing. |
| Extract.GreedySpanOfWrapped | src/App.jsx:1659 | Commentary around a bracketed payload is cut off exactly. |
| Extract.StripFences | src/App.jsx:91 | Text without three backticks is left unchanged. Removing a fence shortens the text by at least three characters. |
| Extract.SafeParse | src/App.jsx:84-97 | Empty input gives nothing. A direct parse success is kept. For trimmed input without a fence the result is the direct parse. |
| Extract.SafeParseFenced | src/App.jsx:88-92 | A payload wrapped as ```` ```json … ``` ```` that the parser rejects is recovered as the parse of its body. |
| Extract.ParseGenerated | src/App.jsx:1711-1713 | No bracket span gives nothing. Otherwise the result is the direct parse of the span when that succeeds, and only otherwise the parse of the cleaned-up span. |
| Schedule.Wrap | src/App.jsx:453 | A wrapped item is pending with no minutes done. If its duration is positive, its status matches its progress exactly. |
| Schedule.NewSchedule | src/App.jsx:450-455 | The blocks are the plan's items in order, each pending. The target is the sum of the durations, accumulated left to right, and equals the sum over the blocks. Minutes done start at 0. |
| Schedule.WrappedMinutes | src/App.jsx:453-454 | Wrapping preserves the total duration. |
| Schedule.CompleteBlock | src/App.jsx:1391-1398 | Minutes add up. The block is completed iff it was completed before or now reaches its target. Consistency (completed implies target reached) and exactness are preserved for non-negative sessions. |
| Schedule.RecordSession | src/App.jsx:1383-1402 | Total minutes grow by the session. Only the target block changes. Completed blocks stay completed. Consistency is preserved. |
| Focus.CurrentTask | src/App.jsx:1225-1239 | Precedence video, then custom, then block. Default titles; a video gives 30 minutes and a custom task gives its input minutes. A block task exists iff the index is in range and has `max(5, duration - done)` minutes. |
| Focus.Open | src/App.jsx:1241-1246 | The timer starts paused at the task's seconds (30 minutes without a task), with no breaches. The link is the video's url when truthy, else empty; the embedded id is the video's id when truthy, else none. |
| Focus.ResetForTask | src/App.jsx:1250-1256 | A task change sets both the remaining and the initial time to the task's seconds. The running state, breaches, link and embedded video are kept. |
| Focus.VideoLoaded | src/App.jsx:1290-1295 | A positive video length sets both times to its floor. Otherwise nothing changes. No other field changes in either case, and the timer invariant is kept. |
| Focus.Hidden | src/App.jsx:1317-1322 | While running: pause, one more breach, -2. While paused: nothing. |
| Focus.Tick | src/App.jsx:1325-1332 | Running with time left: one second less. Running at zero: stop and complete. Otherwise unchanged. The timer never exceeds its initial value. |
| Focus.Toggle | src/App.jsx:1339-1352 | No task: nothing. Starting with a non-blank link that yields no id is rejected. Starting with a valid link embeds its id. Otherwise the running state flips. A toggle changes only the running flag and the embedded id, so the timer invariant is kept. |
| Focus.SpentMinutes | src/App.jsx:1359-1360 | At least one minute; exactly the whole minutes elapsed once a minute has passed. |
| Focus.ScoreDelta | src/App.jsx:1373-1379 | -5 iff more than 60 s were left; +1 iff at most 60 s were left and there was no breach; 0 otherwise. |
| Focus.Complete | src/App.jsx:1354-1414 | The spent minutes, the delta, and a schedule update only with a schedule. Only a scheduled block with an index is touched, and the record carries the title, minutes and breaches. |
| Focus.FinishEarly | src/App.jsx:1613-1615 | Offered iff paused and the time left differs from the task's minutes · 60, which is not the initial duration once a video length is loaded. With more than a minute left it costs 5 points. |
| Focus.VideoLengthOffersFinish | src/App.jsx:1290-1295 | Once a video length differing from the task's length is loaded, the finish button is offered before any second elapses, and finishing then records one minute. |
| Focus.OpeningHasTask | src/App.jsx:1220 | With the initial mode and the forced switch to custom mode, there is no task exactly when no video is given and a selected block index lies outside a non-empty block list. |
| Focus.NoBlocksHasTask | src/App.jsx:1420-1422 | With no blocks, the forced switch to custom mode always leaves a task to run. |
| Focus.RunExpires | src/App.jsx:1325-1332 | A running timer with `t` seconds left counts down one per tick and expires on tick `t + 1`. |
| Focus.NaturalCompletion | src/App.jsx:1328-1332 | A session left to run out is never penalised. It is rewarded iff it had no breach, and it counts the whole initial length. |
| TestMode.QuestionText | src/App.jsx:901-904 | The Hindi text when selected and non-empty, else the English text when non-empty, else the legacy field. |
| TestMode.OptionsOf | src/App.jsx:906-909 | The same fallback over arrays, where any present array counts. Finally `[]`. |
| TestMode.Explanation | src/App.jsx:911-914 | The same fallback, ending in the placeholder; never empty. |
| TestMode.EnglishIgnoresHindi | src/App.jsx:901-914 | The English view does not depend on any Hindi field. |
| TestMode.CountCorrect | src/App.jsx:879-882 | At most one point per question. |
| TestMode.ScoreIsCorrectCount | src/App.jsx:879-882 | The score is the number of indices whose answer equals the question's correct index. |
| TestMode.AllCorrectFullScore | src/App.jsx:879-882 | All answers correct gives the full count. |
| TestMode.MissingIndexScores | src/App.jsx:881 | An unanswered question without a correct index counts as correct. |
| TestMode.TwoQuestionExample | src/App.jsx:879-882 | Correct indices 2 and 1, answered 2 and 0: score 1. |
| TestMode.Start | src/App.jsx:831-837 | Opens the given questions at question 0 in English with no answers, breaches, score or result, and the given duration (600 s when it is 0). The timer effect has seen no answers yet. |
| TestMode.Select | src/App.jsx:872-875 | Before submission the current question's answer is overwritten; after it, nothing changes. |
| TestMode.SelectOnlyCurrent | src/App.jsx:874 | Selecting changes only the current index's answer. |
| TestMode.Submit | src/App.jsx:877-893 | Marks submitted and records the score of the current answers, the question count and the breaches. Nothing else changes. |
| TestMode.Tick | src/App.jsx:843-849 | Counts down; at one second or less it submits the current answers and shows zero. |
| TestMode.TickAsWritten | src/App.jsx:843-849 | At expiry it scores the answers and breaches the timer effect saw when it was set up, and changes only the time, the submitted flag, the score and the result. |
| TestMode.Resubscribe | src/App.jsx:839-866 | Re-running the effect before submission refreshes what its closure sees, and nothing else. |
| TestMode.Hidden | src/App.jsx:852-857 | Before submission: one more breach and -5; the countdown keeps running. |
| TestMode.Prev | src/App.jsx:1084 | `max(0, i - 1)`, staying on a question. Nothing else changes. |
| TestMode.Next | src/App.jsx:1091 | `min(n - 1, i + 1)`, staying on a question. Nothing else changes. |
| TestMode.ToggleLanguage | src/App.jsx:921-923 | Before submission the language switches; nothing else changes. |
| TestMode.Step | src/App.jsx:839-893 | Events as the source handles them, with the countdown running the captured closure (`TickAsWritten`). After submission no event changes the outcome or moves points. Every event keeps the time non-negative and the index on a question. |
| TestMode.SubmittedIsFinal | src/App.jsx:839-875 | Once submitted, any sequence of events leaves the answers, score, result, breaches and time unchanged, with no points moved. |
| TestMode.RunKeepsValid | src/App.jsx:843-849 | Every sequence of events keeps the time non-negative and the index on a question. |
| TestMode.CountdownSubmits | src/App.jsx:843-849 | For the corrected countdown: with `t` seconds left the test stays open for `t - 1` ticks and is submitted with the current answers at tick `t`. |
| TestMode.FreshClosureAgrees | src/App.jsx:839-866 | With a freshly set-up effect the as-written countdown equals the corrected one. |
| TestMode.StaleAutoSubmit | src/App.jsx:843-866 | A one-question test answered correctly and left to expire scores 0 as written, 1 as corrected. |
| Vocab.FindIndex | src/App.jsx:1668 | The first index with the lower-cased word, or -1 exactly when none has it. |
| Vocab.ScanProperties | src/App.jsx:1668 | The reference scan gives distinct words, none previously seen, exactly the unseen words of the input, each kept entry being the first with its word. |
| Vocab.DedupIsScan | src/App.jsx:1668 | The `filter`/`findIndex` de-duplication equals the reference scan. |
| Vocab.DedupProperties | src/App.jsx:1668 | No two results share a lower-cased word, and every input word is still present. Each entry is the first input entry with its word. |
| Vocab.FilterKeepsOrder | src/App.jsx:1668 | Entries appear in the order of their words' first occurrences. |
| Vocab.DedupLength | src/App.jsx:1668 | The length is the number of distinct lower-cased words. |
| Vocab.DedupIdempotent | src/App.jsx:1668 | De-duplicating again changes nothing. |
| Vocab.MergeBatchFirst | src/App.jsx:1666-1668 | The merge is the de-duplicated batch, followed by the history entries whose words the batch lacks, so batch entries win. |
| Vocab.RepeatedWordKeepsLength | src/App.jsx:1666-1668 | Adding a word already present, in any letter case, does not lengthen the history. |
| Vocab.RevisionSeconds | src/App.jsx:1718 | `max(300, 60·n)`: at least five minutes and one minute per word, and equal to one of the two. |

## Left out

- Remote store reads, writes, `increment` and subscriptions. Score and minute changes are returned as deltas; the records are returned as values.
- The generative-language API call and its prompts, which are a network client.
- `JSON.parse` itself, which is a parameter of `SafeParse` and `ParseGenerated`. JSON values other than the modelled fields (strings where numbers are expected, for instance) are not representable.
- Rendering, SEO and meta tags, the YouTube player loader (only its `onReady` length is modelled), speech synthesis, local and session storage, alerts, and dates and timestamps.
- Float quantities: hours studied (`spentMinutes / 60`) and progress percentages.
- The read-modify-write race on the block list, which is a concurrency issue.
- Every JavaScript number is an IEEE double, while the model uses unbounded integers. The model agrees with the source only while times and durations stay below 2^53 seconds (above it `time - 1` rounds back to `time`), and `Clock.Decimal` only below 10^21 (from there `toString` gives the `1e+21` form). A custom duration typed in the hundreds of trillions of minutes would leave that range.
- Timers are discrete `Tick` events; the one-second interval itself is not modelled.
- Js.Lower: only ASCII letters are lower-cased. `toLowerCase` also maps other Unicode letters, so two words differing only in non-ASCII case count as distinct here.
- Focus.Complete: takes a present task (the source returns at once without one). It requires the selected block index to be in range. With an out-of-range index the source throws a type error after the profile update has been written, and that path is not modelled.
- Focus.CurrentTask: a custom duration can be any non-zero integer (`parseInt(...) || 30`). A negative one leaves the timer never ticking or completing, which is modelled as is.
- TestMode.Step: the palette jump moves only to existing question indices, the only ones it offers.
- TestMode.Resubscribe: when the parent view re-renders is outside the model, so the event may occur at any time before submission.

## Findings

| source | as written | input that shows it | evidently intended | confidence | as-written member | corrected member |
|---|---|---|---|---|---|---|
| src/App.jsx:843-866 | The countdown effect depends only on `[isSubmitted, userRef]`, so its interval keeps the `handleSubmit` closure from when the effect last ran. At expiry that closure scores the `responses` and reports the `breaches` of that moment. | A one-question test with correct index 0, answered 0 after opening, left to run out without the parent view re-rendering: score 0. | Score the answers on screen at expiry, as the Submit button does (score 1). | not executed; medium (depends on when the parent re-renders) | TestMode.TickAsWritten, TestMode.StaleAutoSubmit | TestMode.Tick, TestMode.CountdownSubmits |

=== FILE: clock.dfy ===
/** The two clock renderings of the tracker: the test timer's `mm:ss`
    (`formatTime`) and the focus timer's hours / minutes / seconds split. */
module Clock {
  import opened Js

  predicate IsDigit(c: char) {
    '0' <= c <= '9'
  }

  predicate AllDigits(s: string) {
    forall k :: 0 <= k < |s| ==> IsDigit(s[k])
  }

  function DigitChar(d: nat): (c: char)
    requires d < 10
    ensures IsDigit(c)
  {
    ('0' as int + d) as char
  }

  /** `n.toString()` for a non-negative integer. */
  function Decimal(n: nat): (r: string)
    ensures |r| >= 1
    ensures AllDigits(r)
    ensures |r| > 1 ==> r[0] != '0'
    ensures n < 100 ==> |r| <= 2
    decreases n
  {
    if n < 10 then [DigitChar(n)] else Decimal(n / 10) + [DigitChar(n % 10)]
  }

  /** The number a string of decimal digits denotes. */
  function DigitsValue(s: string): nat
    requires AllDigits(s)
  {
    if s == [] then 0 else 10 * DigitsValue(s[..|s| - 1]) + (s[|s| - 1] as int - '0' as int)
  }

  lemma {:induction false} DecimalRoundTrip(n: nat)
    ensures DigitsValue(Decimal(n)) == n
    decreases n
  {
    if n >= 10 {
      var d := Decimal(n / 10) + [DigitChar(n % 10)];
      assert d[..|d| - 1] == Decimal(n / 10);
      DecimalRoundTrip(n / 10);
    }
  }

  /** A leading zero does not change the value of a digit string. */
  lemma {:induction false} LeadingZeroValue(s: string)
    requires AllDigits(s)
    ensures DigitsValue(['0'] + s) == DigitsValue(s)
    decreases |s|
  {
    if s != [] {
      var z := ['0'] + s;
      assert z[..|z| - 1] == ['0'] + s[..|s| - 1];
      LeadingZeroValue(s[..|s| - 1]);
    }
  }

  /** `padStart(2, '0')` on a decimal rendering. */
  function Pad2(s: string): (r: string)
    requires |s| >= 1 && AllDigits(s)
    ensures |r| == if |s| >= 2 then |s| else 2
    ensures AllDigits(r)
    ensures DigitsValue(r) == DigitsValue(s)
  {
    if |s| >= 2 then s else (LeadingZeroValue(s); ['0'] + s)
  }

  /** `formatTime`: whole minutes and the remaining seconds, each at least two digits. */
  function FormatTime(seconds: nat): (r: string)
    ensures |r| >= 5
    ensures r[|r| - 3] == ':' && AllDigits(r[..|r| - 3]) && AllDigits(r[|r| - 2..])
    ensures DigitsValue(r[..|r| - 3]) == seconds / 60 && DigitsValue(r[|r| - 2..]) == seconds % 60
  {
    var m := Pad2(Decimal(seconds / 60));
    var s := Pad2(Decimal(seconds % 60));
    DecimalRoundTrip(seconds / 60);
    DecimalRoundTrip(seconds % 60);
    assert |s| == 2;
    var r := m + ":" + s;
    assert r[..|r| - 3] == m && r[|r| - 2..] == s;
    r
  }

  /** Reads back an `m…m:ss` rendering: digits, one colon, exactly two digits. */
  function ParseTime(r: string): Option<nat> {
    if |r| >= 4 && r[|r| - 3] == ':' && AllDigits(r[..|r| - 3]) && AllDigits(r[|r| - 2..]) then
      Some(60 * DigitsValue(r[..|r| - 3]) + DigitsValue(r[|r| - 2..]))
    else
      None
  }

  /** `formatTime` loses nothing: its output reads back as the same number of seconds. */
  lemma FormatTimeRoundTrip(seconds: nat)
    ensures ParseTime(FormatTime(seconds)) == Some(seconds)
  {
  }

  /** The quotient rounded toward zero, as `Math.trunc(a / b)`. */
  function JsQuot(a: int, b: int): int
    requires b > 0
  {
    if a >= 0 then a / b else -((-a) / b)
  }

  /** JavaScript `%`: the remainder of the quotient rounded toward zero, so it
      takes the sign of the dividend. */
  function JsRem(a: int, b: int): (r: int)
    requires b > 0
    ensures a == b * JsQuot(a, b) + r
    ensures a >= 0 ==> 0 <= r < b
    ensures a < 0 ==> -b < r <= 0
  {
    if a >= 0 then a % b
    else
      var q := (-a) / b;
      assert -a == b * q + (-a) % b;
      assert b * (-q) == -(b * q);
      -((-a) % b)
  }

  datatype Hms = Hms(hours: int, minutes: int, seconds: int)

  /** The focus screen's split of `timeLeft` with `Math.floor` and `%`
      (Dafny's `/` by a positive divisor is already the floor). */
  function ClockParts(timeLeft: int): (r: Hms)
    ensures timeLeft >= 0 ==> 0 <= r.minutes < 60 && 0 <= r.seconds < 60 && r.hours >= 0
    ensures timeLeft >= 0 ==> 3600 * r.hours + 60 * r.minutes + r.seconds == timeLeft
  {
    Hms(timeLeft / 3600, JsRem(timeLeft, 3600) / 60, JsRem(timeLeft, 60))
  }
}

=== FILE: extract.dfy ===
/** Recovering JSON from free-form generated text: the greedy bracket-span
    prefilter the callers apply (`/\[.*\]/s`, `/\{.*\}/s`) and `safeJSONParse`
    with its code-fence clean-up. `JSON.parse` itself is a parameter: any
    function from text to an optional value. */
module Extract {
  import opened Js

  /** Index of the first `c` in `s`, or `|s|` when there is none. */
  function FirstIndex(s: string, c: char): (i: nat)
    ensures i <= |s|
    ensures forall k :: 0 <= k < i ==> s[k] != c
    ensures i < |s| ==> s[i] == c
  {
    if s == [] || s[0] == c then 0 else 1 + FirstIndex(s[1..], c)
  }

  /** Index of the last `c` in `s`, or `-1` when there is none. */
  function LastIndex(s: string, c: char): (j: int)
    ensures -1 <= j < |s|
    ensures forall k :: j < k < |s| ==> s[k] != c
    ensures j >= 0 ==> s[j] == c
    decreases |s|
  {
    if s == [] then -1 else if s[|s| - 1] == c then |s| - 1 else LastIndex(s[..|s| - 1], c)
  }

  /** `text[i..j]` is a match of the pattern `<open>.*<close>` with the `s`
      flag: it starts with the opener and ends with a distinct closer. */
  ghost predicate SpanMatch(text: string, open: char, close: char, i: int, j: int) {
    0 <= i && i + 2 <= j <= |text| && text[i] == open && text[j - 1] == close
  }

  /** `text.match(/<open>.*<close>/s)`: everything from the first opener to the last closer. */
  function GreedySpan(text: string, open: char, close: char): (r: Option<string>)
    ensures r.Some? ==> |r.value| >= 2 && r.value[0] == open && r.value[|r.value| - 1] == close
    ensures r.Some? ==> |r.value| <= |text|
  {
    var i := FirstIndex(text, open);
    var j := LastIndex(text, close);
    if i < j then Some(text[i..j + 1]) else None
  }

  /** The regex semantics: no match at all gives nothing; otherwise the result is the
      leftmost match, and among the matches starting there the longest. */
  lemma GreedySpanIsLeftmostLongest(text: string, open: char, close: char)
    ensures GreedySpan(text, open, close).None? <==>
      forall i, j :: !SpanMatch(text, open, close, i, j)
    ensures GreedySpan(text, open, close).Some? ==>
      var i, j := FirstIndex(text, open), LastIndex(text, close) + 1;
      && SpanMatch(text, open, close, i, j)
      && GreedySpan(text, open, close).value == text[i..j]
      && forall i', j' :: SpanMatch(text, open, close, i', j') ==> i <= i' && j' <= j
  {
    var i := FirstIndex(text, open);
    var j := LastIndex(text, close);
    forall i', j' | SpanMatch(text, open, close, i', j')
      ensures i <= i' && j' - 1 <= j
    {
    }
    if i < j {
      assert SpanMatch(text, open, close, i, j + 1);
    }
  }

  /** Applying the prefilter to its own output changes nothing. */
  lemma GreedySpanIdempotent(text: string, open: char, close: char)
    requires GreedySpan(text, open, close).Some?
    ensures GreedySpan(GreedySpan(text, open, close).value, open, close) == GreedySpan(text, open, close)
  {
    var v := GreedySpan(text, open, close).value;
    assert FirstIndex(v, open) == 0;
    assert LastIndex(v, close) == |v| - 1;
    assert v[0..|v|] == v;
  }

  /** Commentary around a bracketed payload is cut off by the prefilter. */
  lemma GreedySpanOfWrapped(pre: string, body: string, post: string, open: char, close: char)
    requires forall k :: 0 <= k < |pre| ==> pre[k] != open
    requires forall k :: 0 <= k < |post| ==> post[k] != close
    ensures GreedySpan(pre + [open] + body + [close] + post, open, close) == Some([open] + body + [close])
  {
    var t := pre + [open] + body + [close] + post;
    var i := |pre|;
    var j := |pre| + 1 + |body|;
    assert t[i] == open;
    assert t[j] == close;
    assert FirstIndex(t, open) == i by {
      forall k | 0 <= k < i ensures t[k] != open { assert t[k] == pre[k]; }
      FirstIndexIs(t, open, i);
    }
    assert LastIndex(t, close) == j by {
      forall k | j < k < |t| ensures t[k] != close { assert t[k] == post[k - j - 1]; }
      LastIndexIs(t, close, j);
    }
    assert t[i..j + 1] == [open] + body + [close];
  }

  lemma FirstIndexIs(s: string, c: char, i: nat)
    requires i < |s| && s[i] == c && forall k :: 0 <= k < i ==> s[k] != c
    ensures FirstIndex(s, c) == i
  {
  }

  lemma LastIndexIs(s: string, c: char, j: nat)
    requires j < |s| && s[j] == c && forall k :: j < k < |s| ==> s[k] != c
    ensures LastIndex(s, c) == j
  {
  }

  // ---------------------------------------------------------------------
  // safeJSONParse

  /** Three backticks start at position `k`. */
  predicate FenceAt(s: string, k: nat) {
    k + 3 <= |s| && s[k] == '`' && s[k + 1] == '`' && s[k + 2] == '`'
  }

  predicate NoFence(s: string) {
    forall k: nat :: k < |s| ==> !FenceAt(s, k)
  }

  /** `str.replace(/```json\s*|\s*```/g, "")`: at each position the first
      alternative is tried first; the second matches a whitespace run that
      ends in three backticks. */
  function StripFences(s: string): (r: string)
    ensures |r| <= |s|
    ensures NoFence(s) ==> r == s
    ensures !NoFence(s) ==> |r| <= |s| - 3
    decreases |s|
  {
    var w := LeadingSpaces(s);
    if StartsWith(s, "```json") then
      assert FenceAt(s, 0);
      var rest := s[7..];
      StripFences(rest[LeadingSpaces(rest)..])
    else if StartsWith(s[w..], "```") then
      assert FenceAt(s, w);
      StripFences(s[w + 3..])
    else if s == [] then
      []
    else
      FenceShift(s);
      [s[0]] + StripFences(s[1..])
  }

  /** Past a position where no fence starts, fences are those of the rest. */
  lemma FenceShift(s: string)
    requires |s| > 0 && !FenceAt(s, 0)
    ensures NoFence(s) <==> NoFence(s[1..])
  {
    if !NoFence(s) {
      var k: nat :| k < |s| && FenceAt(s, k);
      assert FenceAt(s[1..], k - 1);
    }
    if !NoFence(s[1..]) {
      var k: nat :| k < |s| - 1 && FenceAt(s[1..], k);
      assert FenceAt(s, k + 1);
    }
  }

  /** `safeJSONParse`: empty input gives nothing; otherwise parse as is, and
      only if that fails, parse the fence-stripped, trimmed text. */
  function SafeParse<J>(str: string, parse: string -> Option<J>): (r: Option<J>)
    ensures str == "" ==> r == None
    ensures str != "" && parse(str).Some? ==> r == parse(str)
    ensures str != "" && NoFence(str) && IsTrimmed(str) ==> r == parse(str)
  {
    if str == "" then None
    else if parse(str).Some? then parse(str)
    else
      TrimmedIsFixed(str);
      parse(Trim(StripFences(str)))
  }

  /** The callers' pipeline: prefilter for the outermost bracket pair, then `safeJSONParse`. */
  function ParseGenerated<J>(raw: string, open: char, close: char, parse: string -> Option<J>): (r: Option<J>)
    ensures GreedySpan(raw, open, close).None? ==> r == None
    ensures GreedySpan(raw, open, close).Some? ==>
              var span := GreedySpan(raw, open, close).value;
              && (parse(span).Some? ==> r == parse(span))
              && (parse(span).None? ==> r == parse(Trim(StripFences(span))))
  {
    match GreedySpan(raw, open, close)
    case None => None
    case Some(span) => SafeParse(span, parse)
  }

  lemma StripFencesSpaceThenFence(ws: string)
    requires AllSpace(ws)
    ensures StripFences(ws + "```") == []
  {
    var s := ws + "```";
    assert LeadingSpaces(s) == |ws| by {
      assert forall k :: 0 <= k < |ws| ==> IsSpace(s[k]);
      assert !IsSpace(s[|ws|]);
      LeadingSpacesIs(s, |ws|);
    }
    assert s[|ws|..] == "```";
    assert !StartsWith(s, "```json") by {
      if |ws| > 0 { assert s[0] == ws[0]; }
    }
    assert s[|ws| + 3..] == [];
  }

  lemma LeadingSpacesIs(s: string, n: nat)
    requires n <= |s| && (forall k :: 0 <= k < n ==> IsSpace(s[k])) && (n < |s| ==> !IsSpace(s[n]))
    ensures LeadingSpaces(s) == n
  {
  }

  predicate NoBacktick(s: string) {
    forall k :: 0 <= k < |s| ==> s[k] != '`'
  }

  /** One step over a leading character that cannot start a fence. */
  lemma StripFencesStep(body: string, tail: string)
    requires |body| > 0 && NoBacktick(body) && !IsSpace(body[|body| - 1])
    ensures StripFences(body + tail) == [body[0]] + StripFences(body[1..] + tail)
  {
    var s := body + tail;
    assert s[0] == body[0];
    var w := LeadingSpaces(s);
    assert w < |body| && s[w] == body[w] by {
      assert s[|body| - 1] == body[|body| - 1];
    }
    assert !StartsWith(s, "```json") by { assert s[0] != '`'; }
    assert !StartsWith(s[w..], "```") by { assert s[w..][0] == body[w]; }
    assert s[1..] == body[1..] + tail;
  }

  lemma ConsAppend(body: string, x: string)
    requires |body| > 0
    ensures [body[0]] + (body[1..] + x) == body + x
  {
    assert body == [body[0]] + body[1..];
  }

  /** Text without backticks that does not end in whitespace passes through untouched,
      whatever follows it. */
  lemma {:induction false} StripFencesKeepsBody(body: string, tail: string)
    requires NoBacktick(body) && (|body| > 0 ==> !IsSpace(body[|body| - 1]))
    ensures StripFences(body + tail) == body + StripFences(tail)
    decreases |body|
  {
    if body == [] {
      assert body + tail == tail;
    } else {
      StripFencesStep(body, tail);
      StripFencesKeepsBody(body[1..], tail);
      ConsAppend(body, StripFences(tail));
    }
  }

  /** A fenced payload: "```json", whitespace, the JSON text, whitespace, "```". */
  function Fenced(ws1: string, body: string, ws2: string): string {
    "```json" + ws1 + body + ws2 + "```"
  }

  lemma StripFencesOfFenced(ws1: string, body: string, ws2: string)
    requires AllSpace(ws1) && AllSpace(ws2)
    requires |body| > 0 && NoBacktick(body) && IsTrimmed(body)
    ensures StripFences(Fenced(ws1, body, ws2)) == body
  {
    var s := Fenced(ws1, body, ws2);
    var rest := ws1 + body + ws2 + "```";
    assert s == "```json" + rest;
    assert s[..7] == "```json";
    assert s[7..] == rest;
    assert LeadingSpaces(rest) == |ws1| by {
      assert forall k :: 0 <= k < |ws1| ==> IsSpace(rest[k]);
      assert rest[|ws1|] == body[0];
      LeadingSpacesIs(rest, |ws1|);
    }
    assert rest[|ws1|..] == body + (ws2 + "```");
    StripFencesKeepsBody(body, ws2 + "```");
    StripFencesSpaceThenFence(ws2);
    assert body + [] == body;
  }

  /** A payload the parser rejects only because of its code fence is recovered by
      the clean-up step. */
  lemma SafeParseFenced<J>(ws1: string, body: string, ws2: string, parse: string -> Option<J>)
    requires AllSpace(ws1) && AllSpace(ws2)
    requires |body| > 0 && NoBacktick(body) && IsTrimmed(body)
    requires parse(Fenced(ws1, body, ws2)).None?
    ensures SafeParse(Fenced(ws1, body, ws2), parse) == parse(body)
  {
    StripFencesOfFenced(ws1, body, ws2);
    TrimmedIsFixed(body);
  }
}

=== FILE: focus.dfy ===
/** The focus-session engine: which task the timer runs for, the timer's
    running/paused transitions, visibility breaches, and what finishing a
    session computes. Score changes are returned as deltas; the writes to the
    remote store are not modelled. */
module Focus {
  import opened Js
  import opened Schedule
  import YouTube

  /** The video handed over from the library: optional title, link and id. */
  datatype Video = Video(title: Option<string>, url: Option<string>, id: Option<string>)

  /** The custom-task form; `duration` is `parseInt(input) || 30`, so any non-zero integer or 30. */
  datatype CustomInput = CustomInput(title: string, duration: int)

  datatype Origin = FromVideo | FromCustom | FromBlock(index: nat)

  /** The derived current task (`duration_min` is the timer length in minutes). */
  datatype Task = Task(title: string, durationMin: int, kind: string, origin: Origin) {
    predicate IsAdHoc() { !origin.FromBlock? }
  }

  const VideoMinutes: int := 30
  const MinBlockMinutes: int := 5
  const DefaultCustomTitle: string := "Self Study Session"
  const DefaultVideoTitle: string := "Video Revision"

  function Max(a: int, b: int): int {
    if a >= b then a else b
  }

  /** The current task, by precedence: a video, then the custom task, then the
      selected schedule block (its remaining minutes, never below five). */
  function CurrentTask(video: Option<Video>, isCustom: bool, input: CustomInput,
                       activeTaskIndex: Option<nat>, blocks: seq<Block>): (r: Option<Task>)
    ensures video.Some? ==>
      && r.Some? && r.value.origin == FromVideo && r.value.durationMin == VideoMinutes
      && r.value.title == (if TruthyText(video.value.title) then video.value.title.value else DefaultVideoTitle)
    ensures video.None? && isCustom ==>
      && r.Some? && r.value.origin == FromCustom
      && r.value.durationMin == input.duration
      && r.value.title == (if input.title != "" then input.title else DefaultCustomTitle)
    ensures video.None? && !isCustom ==>
      (r.Some? <==> activeTaskIndex.Some? && activeTaskIndex.value < |blocks|)
    ensures r.Some? && r.value.origin.FromBlock? ==>
      var i := r.value.origin.index;
      && video.None? && !isCustom && activeTaskIndex == Some(i) && i < |blocks|
      && r.value.title == blocks[i].title
      && r.value.durationMin >= MinBlockMinutes
      && r.value.durationMin >= blocks[i].durationMin - blocks[i].completedMin
      && (r.value.durationMin == MinBlockMinutes || r.value.durationMin == blocks[i].durationMin - blocks[i].completedMin)
  {
    if video.Some? then
      var t := if TruthyText(video.value.title) then video.value.title.value else DefaultVideoTitle;
      Some(Task(t, VideoMinutes, "Revision", FromVideo))
    else if isCustom then
      Some(Task(if input.title != "" then input.title else DefaultCustomTitle, input.duration, "Custom", FromCustom))
    else if activeTaskIndex.Some? && activeTaskIndex.value < |blocks| then
      var b := blocks[activeTaskIndex.value];
      Some(Task(b.title, Max(MinBlockMinutes, b.durationMin - b.completedMin), b.kind, FromBlock(activeTaskIndex.value)))
    else
      None
  }

  // ---------------------------------------------------------------------
  // Timer state

  datatype FocusState = FocusState(
    timeLeft: int,            // seconds
    initialDuration: int,     // seconds, captured when the task (or video length) is set
    isActive: bool,
    breaches: nat,
    youtubeLink: string,
    embeddedVideo: Option<string>)

  /** Seconds the timer starts from for a task (30 minutes without one). */
  function TaskSeconds(task: Option<Task>): int {
    if task.Some? then task.value.durationMin * 60 else VideoMinutes * 60
  }

  /** The state when the focus view opens. */
  function Open(task: Option<Task>, video: Option<Video>): (s: FocusState)
    ensures s.timeLeft == s.initialDuration == TaskSeconds(task)
    ensures !s.isActive && s.breaches == 0
    ensures video.Some? && TruthyText(video.value.url) ==> s.youtubeLink == video.value.url.value
    ensures video.None? || !TruthyText(video.value.url) ==> s.youtubeLink == ""
    ensures video.Some? && TruthyText(video.value.id) ==> s.embeddedVideo == video.value.id
    ensures video.None? || !TruthyText(video.value.id) ==> s.embeddedVideo == None
  {
    var link := if video.Some? && TruthyText(video.value.url) then video.value.url.value else "";
    var id := if video.Some? && TruthyText(video.value.id) then video.value.id else None;
    FocusState(TaskSeconds(task), TaskSeconds(task), false, 0, link, id)
  }

  /** The timer never shows more than it started from, and it only goes below
      zero when it started there (a negative custom duration). */
  predicate Valid(s: FocusState) {
    s.timeLeft <= s.initialDuration && (s.timeLeft < 0 ==> s.timeLeft == s.initialDuration)
  }

  /** The reset effect when the task's title or length changes. */
  function ResetForTask(s: FocusState, task: Task): (r: FocusState)
    ensures Valid(r) && r.timeLeft == task.durationMin * 60 && r.initialDuration == task.durationMin * 60
    ensures r.isActive == s.isActive && r.breaches == s.breaches
    ensures r.youtubeLink == s.youtubeLink && r.embeddedVideo == s.embeddedVideo
  {
    s.(timeLeft := task.durationMin * 60, initialDuration := task.durationMin * 60)
  }

  /** The player reports the video's real length (seconds, possibly fractional). */
  function VideoLoaded(s: FocusState, duration: real): (r: FocusState)
    ensures duration > 0.0 ==> r.timeLeft == r.initialDuration && r.timeLeft as real <= duration < r.timeLeft as real + 1.0
    ensures duration <= 0.0 ==> r == s
    ensures Valid(s) ==> Valid(r)
    ensures r == s.(timeLeft := r.timeLeft, initialDuration := r.initialDuration)
  {
    if duration > 0.0 then s.(timeLeft := duration.Floor, initialDuration := duration.Floor) else s
  }

  const BreachPenalty: int := -2

  /** Losing visibility while running pauses the timer, counts a breach and costs two points. */
  function Hidden(s: FocusState): (r: (FocusState, int))
    ensures s.isActive ==> r.0 == s.(isActive := false, breaches := s.breaches + 1) && r.1 == BreachPenalty
    ensures !s.isActive ==> r.0 == s && r.1 == 0
  {
    if s.isActive then (s.(isActive := false, breaches := s.breaches + 1), BreachPenalty) else (s, 0)
  }

  datatype TickResult = Ticked(state: FocusState) | Expired(state: FocusState)

  /** One second of the timer effect: count down while running, and stop and
      complete once zero is reached; a paused (or negative) timer stays as it is. */
  function Tick(s: FocusState): (r: TickResult)
    ensures s.isActive && s.timeLeft > 0 ==> r == Ticked(s.(timeLeft := s.timeLeft - 1))
    ensures s.isActive && s.timeLeft == 0 ==> r == Expired(s.(isActive := false))
    ensures !s.isActive || s.timeLeft < 0 ==> r == Ticked(s)
    ensures Valid(s) ==> Valid(r.state)
  {
    if s.isActive && s.timeLeft > 0 then Ticked(s.(timeLeft := s.timeLeft - 1))
    else if s.timeLeft == 0 && s.isActive then Expired(s.(isActive := false))
    else Ticked(s)
  }

  datatype ToggleResult = Toggled(state: FocusState) | Rejected | NoTask

  /** Start / pause. Starting with a non-blank link requires it to yield an id,
      which becomes the embedded video; a link without one leaves the timer stopped. */
  function Toggle(s: FocusState, task: Option<Task>): (r: ToggleResult)
    ensures task.None? <==> r.NoTask?
    ensures r.Rejected? <==> task.Some? && !s.isActive && Trim(s.youtubeLink) != "" && YouTube.GetYoutubeId(s.youtubeLink).None?
    ensures r.Toggled? ==> r.state.isActive == !s.isActive && r.state.timeLeft == s.timeLeft && r.state.breaches == s.breaches
    ensures r.Toggled? && !s.isActive && Trim(s.youtubeLink) != "" ==>
      r.state.embeddedVideo == YouTube.GetYoutubeId(s.youtubeLink) && r.state.embeddedVideo.Some?
    ensures r.Toggled? && (s.isActive || Trim(s.youtubeLink) == "") ==> r.state.embeddedVideo == s.embeddedVideo
    ensures r.Toggled? ==> r.state == s.(isActive := !s.isActive, embeddedVideo := r.state.embeddedVideo)
    ensures r.Toggled? && Valid(s) ==> Valid(r.state)
  {
    if task.None? then NoTask
    else if !s.isActive && Trim(s.youtubeLink) != "" then
      match YouTube.GetYoutubeId(s.youtubeLink)
      case Some(id) => Toggled(s.(embeddedVideo := Some(id), isActive := true))
      case None => Rejected
    else Toggled(s.(isActive := !s.isActive))
  }

  // ---------------------------------------------------------------------
  // Completing a session

  /** The history record of a finished session. */
  datatype SessionRecord = SessionRecord(
    task: string, duration: int, breaches: nat, kind: string,
    videoId: Option<string>, videoUrl: Option<string>)

  datatype Completion = Completion(
    spentMinutes: int,
    scoreDelta: int,
    schedule: Option<DailySchedule>,
    record: SessionRecord)

  const EarlyExitPenalty: int := -5
  const CleanSessionReward: int := 1
  const EarlyExitSeconds: int := 60

  /** Whole minutes spent, never less than one. */
  function SpentMinutes(initialDuration: int, timeLeft: int): (m: int)
    ensures m >= 1
    ensures initialDuration - timeLeft < 120 ==> m == 1
    ensures initialDuration - timeLeft >= 60 ==> 60 * m <= initialDuration - timeLeft < 60 * m + 60
  {
    Max(1, (initialDuration - timeLeft) / 60)
  }

  /** Discipline change: a penalty when more than a minute was left, else a reward
      for a session without breaches. */
  function ScoreDelta(timeLeft: int, breaches: nat): (d: int)
    ensures d == EarlyExitPenalty <==> timeLeft > EarlyExitSeconds
    ensures d == CleanSessionReward <==> timeLeft <= EarlyExitSeconds && breaches == 0
    ensures d == 0 <==> timeLeft <= EarlyExitSeconds && breaches > 0
  {
    if timeLeft > EarlyExitSeconds then EarlyExitPenalty else if breaches == 0 then CleanSessionReward else 0
  }

  /** The block a completion updates: only for a scheduled task with a selected index. */
  function TargetBlock(task: Task, activeTaskIndex: Option<nat>): Option<nat> {
    if !task.IsAdHoc() && activeTaskIndex.Some? then activeTaskIndex else None
  }

  /** Where the source would index past the block list the session cannot be recorded. */
  predicate CanRecord(task: Task, schedule: Option<DailySchedule>, activeTaskIndex: Option<nat>) {
    schedule.Some? && TargetBlock(task, activeTaskIndex).Some? ==>
      TargetBlock(task, activeTaskIndex).value < |schedule.value.blocks|
  }

  /** `completeSession` for a current task. */
  function Complete(s: FocusState, task: Task, schedule: Option<DailySchedule>, activeTaskIndex: Option<nat>): (c: Completion)
    requires CanRecord(task, schedule, activeTaskIndex)
    ensures c.spentMinutes == SpentMinutes(s.initialDuration, s.timeLeft)
    ensures c.scoreDelta == ScoreDelta(s.timeLeft, s.breaches)
    ensures schedule.None? <==> c.schedule.None?
    ensures schedule.Some? ==>
      && c.schedule.value.totalMinutesDone == schedule.value.totalMinutesDone + c.spentMinutes
      && |c.schedule.value.blocks| == |schedule.value.blocks|
    ensures schedule.Some? && TargetBlock(task, activeTaskIndex).None? ==> c.schedule.value.blocks == schedule.value.blocks
    ensures schedule.Some? && TargetBlock(task, activeTaskIndex).Some? ==>
      var i := TargetBlock(task, activeTaskIndex).value;
      && c.schedule.value.blocks[i].completedMin == schedule.value.blocks[i].completedMin + c.spentMinutes
      && (c.schedule.value.blocks[i].status == Completed <==>
            schedule.value.blocks[i].status == Completed || c.schedule.value.blocks[i].completedMin >= schedule.value.blocks[i].durationMin)
      && forall j :: 0 <= j < |schedule.value.blocks| && j != i ==> c.schedule.value.blocks[j] == schedule.value.blocks[j]
    ensures c.record.task == task.title && c.record.duration == c.spentMinutes && c.record.breaches == s.breaches
  {
    var spent := SpentMinutes(s.initialDuration, s.timeLeft);
    var videoId := if s.embeddedVideo.Some? && s.embeddedVideo.value != "" then s.embeddedVideo
                   else if s.youtubeLink != "" then YouTube.GetYoutubeId(s.youtubeLink) else None;
    var url := if s.youtubeLink != "" then Some(s.youtubeLink) else None;
    var sched := if schedule.Some? then Some(RecordSession(schedule.value, TargetBlock(task, activeTaskIndex), spent)) else None;
    Completion(spent, ScoreDelta(s.timeLeft, s.breaches), sched, SessionRecord(task.title, spent, s.breaches, task.kind, videoId, url))
  }

  /** The "Finish & Save" button: offered only while paused and while the time left
      differs from the task's minutes · 60 (a loaded video length already makes it differ). */
  function FinishEarly(s: FocusState, task: Task, schedule: Option<DailySchedule>, activeTaskIndex: Option<nat>): (r: Option<Completion>)
    requires CanRecord(task, schedule, activeTaskIndex)
    ensures r.Some? <==> !s.isActive && s.timeLeft != task.durationMin * 60
    ensures r.Some? && s.timeLeft > EarlyExitSeconds ==> r.value.scoreDelta == EarlyExitPenalty
  {
    if !s.isActive && s.timeLeft != task.durationMin * 60 then Some(Complete(s, task, schedule, activeTaskIndex)) else None
  }

  // ---------------------------------------------------------------------
  // Properties across several events

  /** `n` timer ticks with no other event in between; stops at expiry. */
  function Run(s: FocusState, n: nat): TickResult
    decreases n
  {
    if n == 0 then Ticked(s)
    else match Tick(s)
      case Expired(e) => Expired(e)
      case Ticked(t) => Run(t, n - 1)
  }

  /** A running timer with `t` seconds left expires on exactly the tick after `t` ticks. */
  lemma {:induction false} RunExpires(s: FocusState)
    requires s.isActive && s.timeLeft >= 0
    ensures Run(s, s.timeLeft + 1) == Expired(s.(timeLeft := 0, isActive := false))
    ensures forall n: nat :: n <= s.timeLeft ==> Run(s, n) == Ticked(s.(timeLeft := s.timeLeft - n))
    decreases s.timeLeft
  {
    if s.timeLeft > 0 {
      var t := s.(timeLeft := s.timeLeft - 1);
      RunExpires(t);
      assert t.(timeLeft := 0, isActive := false) == s.(timeLeft := 0, isActive := false);
      forall n: nat | n <= s.timeLeft
        ensures Run(s, n) == Ticked(s.(timeLeft := s.timeLeft - n))
      {
        if n > 0 {
          assert Run(s, n) == Run(t, n - 1);
          assert t.(timeLeft := t.timeLeft - (n - 1)) == s.(timeLeft := s.timeLeft - n);
        }
      }
    } else {
      assert Run(s, 1) == Expired(s.(isActive := false));
    }
  }

  /** A session left to run out is never penalised: it earns the reward exactly
      when it had no breach, and it counts the whole initial length. */
  lemma NaturalCompletion(s: FocusState, task: Task, schedule: Option<DailySchedule>, activeTaskIndex: Option<nat>)
    requires s.isActive && s.timeLeft >= 0
    requires CanRecord(task, schedule, activeTaskIndex)
    ensures Run(s, s.timeLeft + 1).Expired?
    ensures var c := Complete(Run(s, s.timeLeft + 1).state, task, schedule, activeTaskIndex);
      && (c.scoreDelta == CleanSessionReward <==> s.breaches == 0)
      && (c.scoreDelta == 0 <==> s.breaches > 0)
      && c.spentMinutes == SpentMinutes(s.initialDuration, 0)
  {
    RunExpires(s);
  }

  /** The task derived from a schedule's blocks can always be recorded on that schedule. */
  lemma DerivedTaskCanRecord(video: Option<Video>, isCustom: bool, input: CustomInput,
                             activeTaskIndex: Option<nat>, schedule: Option<DailySchedule>)
    requires CurrentTask(video, isCustom, input, activeTaskIndex, BlocksOf(schedule)).Some?
    ensures CanRecord(CurrentTask(video, isCustom, input, activeTaskIndex, BlocksOf(schedule)).value, schedule, activeTaskIndex)
  {
  }

  /** `todaySchedule?.blocks || []` */
  function BlocksOf(schedule: Option<DailySchedule>): seq<Block> {
    if schedule.Some? then schedule.value.blocks else []
  }

  /** The finish button compares the time left with the task's minutes, not with
      the initial duration: once a video's length is loaded and differs from the
      task's length, the button is offered before a single second has elapsed. */
  lemma VideoLengthOffersFinish(s: FocusState, task: Task, duration: real,
                                schedule: Option<DailySchedule>, activeTaskIndex: Option<nat>)
    requires CanRecord(task, schedule, activeTaskIndex)
    requires !s.isActive && duration > 0.0 && duration.Floor != task.durationMin * 60
    ensures var v := VideoLoaded(s, duration);
      && v.timeLeft == v.initialDuration
      && FinishEarly(v, task, schedule, activeTaskIndex).Some?
      && FinishEarly(v, task, schedule, activeTaskIndex).value.spentMinutes == 1
  {
  }

  // ---------------------------------------------------------------------
  // Choosing the mode

  /** The initial mode: custom when neither a block nor a video was handed over. */
  function InitialCustom(activeTaskIndex: Option<nat>, video: Option<Video>): bool {
    activeTaskIndex.None? && video.None?
  }

  /** The render-time switch into custom mode when there are no blocks and no video. */
  function ForceCustom(isCustom: bool, video: Option<Video>, blocks: seq<Block>): bool {
    if |blocks| == 0 && video.None? && !isCustom then true else isCustom
  }

  /** With the forced switch, a task exists unless a selected block index lies
      outside a non-empty block list. */
  lemma OpeningHasTask(video: Option<Video>, input: CustomInput, activeTaskIndex: Option<nat>, blocks: seq<Block>)
    ensures var custom := ForceCustom(InitialCustom(activeTaskIndex, video), video, blocks);
      CurrentTask(video, custom, input, activeTaskIndex, blocks).None? <==>
        video.None? && activeTaskIndex.Some? && activeTaskIndex.value >= |blocks| > 0
  {
  }

  /** Without blocks, the forced switch always leaves a task to run. */
  lemma NoBlocksHasTask(video: Option<Video>, isCustom: bool, input: CustomInput, activeTaskIndex: Option<nat>)
    ensures CurrentTask(video, ForceCustom(isCustom, video, []), input, activeTaskIndex, []).Some?
  {
  }
}

=== FILE: js.dfy ===
/** Small pieces of JavaScript semantics that the study tracker relies on:
    an optional value for `null`/`undefined`, truthiness of strings, the
    whitespace set of `String.prototype.trim` and of the regex class `\s`,
    and ASCII lower-casing. */
module Js {

  /** `null` / `undefined` versus a present value. */
  datatype Option<+T> = None | Some(value: T)

  /** A string field read from generated JSON is truthy when present and non-empty. */
  predicate TruthyText(s: Option<string>) {
    s.Some? && s.value != ""
  }

  /** `a || b` on two possibly absent strings. */
  function OrText(a: Option<string>, b: Option<string>): (r: Option<string>)
    ensures TruthyText(a) ==> r == a
    ensures !TruthyText(a) ==> r == b
  {
    if TruthyText(a) then a else b
  }

  /** The characters `trim()` removes and `\s` matches: WhiteSpace and
      LineTerminator of the ECMAScript grammar (the space separators of
      Unicode category Zs included). */
  predicate IsSpace(c: char) {
    || c == ' ' || c == '\t' || c == '\n' || c == '\r' || c == '\U{B}' || c == '\U{C}'
    || c == '\U{A0}' || c == '\U{1680}' || ('\U{2000}' <= c <= '\U{200A}')
    || c == '\U{2028}' || c == '\U{2029}' || c == '\U{202F}' || c == '\U{205F}'
    || c == '\U{3000}' || c == '\U{FEFF}'
  }

  /** The characters a regex `.` does not match without the `s` flag. */
  predicate IsLineTerminator(c: char) {
    c == '\n' || c == '\r' || c == '\U{2028}' || c == '\U{2029}'
  }

  predicate NoLineTerminator(s: string) {
    forall k :: 0 <= k < |s| ==> !IsLineTerminator(s[k])
  }

  predicate AllSpace(s: string) {
    forall k :: 0 <= k < |s| ==> IsSpace(s[k])
  }

  /** Neither end of `s` is whitespace. */
  predicate IsTrimmed(s: string) {
    |s| > 0 ==> !IsSpace(s[0]) && !IsSpace(s[|s| - 1])
  }

  /** Length of the leading whitespace run of `s`. */
  function LeadingSpaces(s: string): (i: nat)
    ensures i <= |s|
    ensures forall k :: 0 <= k < i ==> IsSpace(s[k])
    ensures i < |s| ==> !IsSpace(s[i])
  {
    if |s| > 0 && IsSpace(s[0]) then 1 + LeadingSpaces(s[1..]) else 0
  }

  /** Start of the trailing whitespace run of `s`, looking no further left than `lo`. */
  function TrailingStart(s: string, lo: nat): (j: nat)
    requires lo <= |s|
    ensures lo <= j <= |s|
    ensures forall k :: j <= k < |s| ==> IsSpace(s[k])
    ensures j > lo ==> !IsSpace(s[j - 1])
    decreases |s|
  {
    if |s| > lo && IsSpace(s[|s| - 1]) then TrailingStart(s[..|s| - 1], lo) else |s|
  }

  /** `String.prototype.trim`. */
  function Trim(s: string): (r: string)
    ensures IsTrimmed(r)
    ensures |r| <= |s|
    ensures LeadingSpaces(s) + |r| <= |s|
    ensures s == s[..LeadingSpaces(s)] + r + s[LeadingSpaces(s) + |r|..]
    ensures AllSpace(s[..LeadingSpaces(s)]) && AllSpace(s[LeadingSpaces(s) + |r|..])
    ensures AllSpace(s) <==> r == []
  {
    var i := LeadingSpaces(s);
    var j := TrailingStart(s, i);
    assert s == s[..i] + s[i..j] + s[j..];
    s[i..j]
  }

  /** Trimming a string without whitespace at either end changes nothing. */
  lemma TrimmedIsFixed(s: string)
    ensures IsTrimmed(s) ==> Trim(s) == s
  {
    if |s| > 0 && IsTrimmed(s) {
      assert LeadingSpaces(s) == 0;
      assert TrailingStart(s, 0) == |s|;
    }
  }

  /** `trim` is idempotent. */
  lemma TrimIdempotent(s: string)
    ensures Trim(Trim(s)) == Trim(s)
  {
    TrimmedIsFixed(Trim(s));
  }

  /** ASCII case mapping of `toLowerCase`. */
  function LowerChar(c: char): (r: char)
    ensures 'A' <= c <= 'Z' ==> r as int == c as int + 32
    ensures !('A' <= c <= 'Z') ==> r == c
  {
    if 'A' <= c <= 'Z' then (c as int + 32) as char else c
  }

  function Lower(s: string): (r: string)
    ensures |r| == |s|
    ensures forall k :: 0 <= k < |s| ==> r[k] == LowerChar(s[k])
  {
    seq(|s|, k requires 0 <= k < |s| => LowerChar(s[k]))
  }

  predicate StartsWith(s: string, p: string) {
    |p| <= |s| && s[..|p|] == p
  }
}

=== FILE: schedule.dfy ===
/** The day's plan: study blocks with accumulated minutes and a status, the
    wrapping of a generated plan into a schedule, and the update a finished
    focus session applies to it. */
module Schedule {
  import opened Js

  datatype Status = Pending | Completed

  /** One element of the generated plan: `{title, duration_min, type}`. */
  datatype PlanItem = PlanItem(title: string, durationMin: int, kind: string)

  /** A study block; an absent `completed_min` reads as 0 (`completed_min || 0`). */
  datatype Block = Block(title: string, durationMin: int, kind: string, status: Status, completedMin: int)

  datatype DailySchedule = DailySchedule(blocks: seq<Block>, totalMinutesDone: int, targetMinutes: int)

  /** Sum of the plan's durations. */
  function PlanMinutes(plan: seq<PlanItem>): int {
    if plan == [] then 0 else plan[0].durationMin + PlanMinutes(plan[1..])
  }

  /** Sum of the blocks' target durations. */
  function BlockMinutes(blocks: seq<Block>): int {
    if blocks == [] then 0 else blocks[0].durationMin + BlockMinutes(blocks[1..])
  }

  lemma {:induction false} PlanMinutesSnoc(plan: seq<PlanItem>, p: PlanItem)
    ensures PlanMinutes(plan + [p]) == PlanMinutes(plan) + p.durationMin
  {
    if plan != [] {
      assert (plan + [p])[1..] == plan[1..] + [p];
      PlanMinutesSnoc(plan[1..], p);
    } else {
      assert [] + [p] == [p];
    }
  }

  /** `{...p, status: 'pending'}`. */
  function Wrap(p: PlanItem): (b: Block)
    ensures b.status == Pending && b.completedMin == 0
    ensures p.durationMin > 0 ==> Exact(b)
  {
    Block(p.title, p.durationMin, p.kind, Pending, 0)
  }

  /** Every wrapped block is pending, carries its item's fields and has no minutes yet. */
  predicate WrapsPlan(blocks: seq<Block>, plan: seq<PlanItem>) {
    && |blocks| == |plan|
    && forall i :: 0 <= i < |plan| ==>
         && blocks[i].status == Pending && blocks[i].completedMin == 0
         && blocks[i].title == plan[i].title && blocks[i].durationMin == plan[i].durationMin
         && blocks[i].kind == plan[i].kind
  }

  lemma {:induction false} WrappedMinutes(blocks: seq<Block>, plan: seq<PlanItem>)
    requires WrapsPlan(blocks, plan)
    ensures BlockMinutes(blocks) == PlanMinutes(plan)
  {
    if plan != [] {
      WrappedMinutes(blocks[1..], plan[1..]);
    }
  }

  /** The schedule written after plan generation: the blocks mapped in order and
      `targetMinutes` accumulated left to right like `reduce`, starting from 0. */
  method NewSchedule(plan: seq<PlanItem>) returns (s: DailySchedule)
    ensures WrapsPlan(s.blocks, plan)
    ensures s.totalMinutesDone == 0
    ensures s.targetMinutes == PlanMinutes(plan)
    ensures s.targetMinutes == BlockMinutes(s.blocks)
  {
    var blocks: seq<Block> := [];
    var acc := 0;
    var i := 0;
    while i < |plan|
      invariant 0 <= i <= |plan|
      invariant WrapsPlan(blocks, plan[..i])
      invariant acc == PlanMinutes(plan[..i])
    {
      assert plan[..i + 1] == plan[..i] + [plan[i]];
      PlanMinutesSnoc(plan[..i], plan[i]);
      blocks := blocks + [Wrap(plan[i])];
      acc := acc + plan[i].durationMin;
      i := i + 1;
    }
    assert plan[..i] == plan;
    s := DailySchedule(blocks, 0, acc);
    WrappedMinutes(s.blocks, plan);
  }

  // ---------------------------------------------------------------------
  // Completing a session on a block

  /** A completed block has reached its target. */
  predicate Consistent(b: Block) {
    b.status == Completed ==> b.completedMin >= b.durationMin
  }

  predicate AllConsistent(blocks: seq<Block>) {
    forall i :: 0 <= i < |blocks| ==> Consistent(blocks[i])
  }

  /** The status says exactly whether the target has been reached. */
  predicate Exact(b: Block) {
    b.status == Completed <==> b.completedMin >= b.durationMin
  }

  /** Adds the session's minutes and marks the block completed once they reach its target;
      otherwise the status is left as it was. */
  function CompleteBlock(b: Block, spent: int): (r: Block)
    ensures r.completedMin == b.completedMin + spent
    ensures r.title == b.title && r.durationMin == b.durationMin && r.kind == b.kind
    ensures r.status == Completed <==> b.status == Completed || r.completedMin >= r.durationMin
    ensures spent >= 0 && Consistent(b) ==> Consistent(r)
    ensures spent >= 0 && Exact(b) ==> Exact(r)
  {
    var done := b.completedMin + spent;
    if done >= b.durationMin then b.(completedMin := done, status := Completed) else b.(completedMin := done)
  }

  /** The schedule update of a finished session: `totalMinutesDone` always grows by the
      session's minutes; only the block at `index`, when there is one, takes them too. */
  function RecordSession(s: DailySchedule, index: Option<nat>, spent: int): (r: DailySchedule)
    requires index.Some? ==> index.value < |s.blocks|
    ensures r.totalMinutesDone == s.totalMinutesDone + spent
    ensures r.targetMinutes == s.targetMinutes
    ensures |r.blocks| == |s.blocks|
    ensures forall i :: 0 <= i < |s.blocks| && index != Some(i) ==> r.blocks[i] == s.blocks[i]
    ensures index.Some? ==> r.blocks[index.value] == CompleteBlock(s.blocks[index.value], spent)
    ensures forall i :: 0 <= i < |s.blocks| && s.blocks[i].status == Completed ==> r.blocks[i].status == Completed
    ensures spent >= 0 && AllConsistent(s.blocks) ==> AllConsistent(r.blocks)
  {
    var blocks := if index.Some? then s.blocks[index.value := CompleteBlock(s.blocks[index.value], spent)] else s.blocks;
    DailySchedule(blocks, s.totalMinutesDone + spent, s.targetMinutes)
  }
}

=== FILE: test_mode.dfy ===
/** The test-taking state machine: per-index answers, a countdown that
    submits at zero, visibility breaches, clamped navigation, scoring, and the
    bilingual field fallback. */
module TestMode {
  import opened Js

  datatype Language = En | Hi

  /** A generated question. Every field may be missing; `correctIndex` is `None`
      when the question has none (`undefined`). */
  datatype Question = Question(
    questionEn: Option<string>, questionHi: Option<string>, question: Option<string>,
    optionsEn: Option<seq<string>>, optionsHi: Option<seq<string>>, options: Option<seq<string>>,
    correctIndex: Option<int>,
    explanationEn: Option<string>, explanationHi: Option<string>, explanation: Option<string>)

  const NoSolution: string := "Solution not available for this question."
  const DefaultSeconds: int := 600
  const BreachPenalty: int := -5

  // ---------------------------------------------------------------------
  // Bilingual lookup: selected language, then English, then the legacy field.

  /** `getQuestionText`: the Hindi text when it is selected and non-empty, otherwise
      the English text when non-empty, otherwise whatever the legacy field holds. */
  function QuestionText(lang: Language, q: Question): (r: Option<string>)
    ensures lang == Hi && TruthyText(q.questionHi) ==> r == q.questionHi
    ensures (lang == En || !TruthyText(q.questionHi)) && TruthyText(q.questionEn) ==> r == q.questionEn
    ensures (lang == En || !TruthyText(q.questionHi)) && !TruthyText(q.questionEn) ==> r == q.question
  {
    if lang == Hi && TruthyText(q.questionHi) then q.questionHi else OrText(q.questionEn, q.question)
  }

  /** `getOptions`: any present array counts (an empty one too), finally `[]`. */
  function OptionsOf(lang: Language, q: Question): (r: seq<string>)
    ensures lang == Hi && q.optionsHi.Some? ==> r == q.optionsHi.value
    ensures (lang == En || q.optionsHi.None?) && q.optionsEn.Some? ==> r == q.optionsEn.value
    ensures (lang == En || q.optionsHi.None?) && q.optionsEn.None? && q.options.Some? ==> r == q.options.value
    ensures (lang == En || q.optionsHi.None?) && q.optionsEn.None? && q.options.None? ==> r == []
  {
    if lang == Hi && q.optionsHi.Some? then q.optionsHi.value
    else if q.optionsEn.Some? then q.optionsEn.value
    else if q.options.Some? then q.options.value
    else []
  }

  /** `getExplanation`: as the question text, ending in a fixed placeholder. */
  function Explanation(lang: Language, q: Question): (r: string)
    ensures lang == Hi && TruthyText(q.explanationHi) ==> r == q.explanationHi.value
    ensures (lang == En || !TruthyText(q.explanationHi)) && TruthyText(q.explanationEn) ==> r == q.explanationEn.value
    ensures (lang == En || !TruthyText(q.explanationHi)) && !TruthyText(q.explanationEn) && TruthyText(q.explanation) ==> r == q.explanation.value
    ensures (lang == En || !TruthyText(q.explanationHi)) && !TruthyText(q.explanationEn) && !TruthyText(q.explanation) ==> r == NoSolution
    ensures r != ""
  {
    if lang == Hi && TruthyText(q.explanationHi) then q.explanationHi.value
    else if TruthyText(q.explanationEn) then q.explanationEn.value
    else if TruthyText(q.explanation) then q.explanation.value
    else NoSolution
  }

  /** The English view never reads a Hindi field: replacing all of them changes nothing. */
  lemma EnglishIgnoresHindi(q: Question, qh: Option<string>, oh: Option<seq<string>>, eh: Option<string>)
    ensures var q' := q.(questionHi := qh, optionsHi := oh, explanationHi := eh);
      && QuestionText(En, q') == QuestionText(En, q)
      && OptionsOf(En, q') == OptionsOf(En, q)
      && Explanation(En, q') == Explanation(En, q)
  {
  }

  // ---------------------------------------------------------------------
  // Scoring

  /** The recorded answer for question `i`, if any. */
  function Answer(responses: map<int, int>, i: int): Option<int> {
    if i in responses then Some(responses[i]) else None
  }

  /** `responses[idx] === q.correctIndex` (two missing values are equal). */
  predicate IsCorrect(qs: seq<Question>, responses: map<int, int>, i: int)
    requires 0 <= i < |qs|
  {
    Answer(responses, i) == qs[i].correctIndex
  }

  /** Correct answers among the first `n` questions, counted in order. */
  function CountCorrect(qs: seq<Question>, responses: map<int, int>, n: nat): (r: nat)
    requires n <= |qs|
    ensures r <= n
  {
    if n == 0 then 0 else CountCorrect(qs, responses, n - 1) + (if IsCorrect(qs, responses, n - 1) then 1 else 0)
  }

  /** The raw score of `handleSubmit`. */
  function Score(qs: seq<Question>, responses: map<int, int>): (r: nat)
    ensures r <= |qs|
  {
    CountCorrect(qs, responses, |qs|)
  }

  ghost function CorrectSet(qs: seq<Question>, responses: map<int, int>, n: nat): set<int>
    requires n <= |qs|
  {
    set i | 0 <= i < n && IsCorrect(qs, responses, i)
  }

  /** The score is the number of indices whose answer equals the question's `correctIndex`. */
  lemma {:induction false} ScoreIsCorrectCount(qs: seq<Question>, responses: map<int, int>, n: nat)
    requires n <= |qs|
    ensures CountCorrect(qs, responses, n) == |CorrectSet(qs, responses, n)|
  {
    if n > 0 {
      ScoreIsCorrectCount(qs, responses, n - 1);
      var prev := CorrectSet(qs, responses, n - 1);
      if IsCorrect(qs, responses, n - 1) {
        assert CorrectSet(qs, responses, n) == prev + {n - 1};
      } else {
        assert CorrectSet(qs, responses, n) == prev;
      }
    } else {
      assert CorrectSet(qs, responses, 0) == {};
    }
  }

  /** Answering every question correctly scores the full count. */
  lemma {:induction false} AllCorrectFullScore(qs: seq<Question>, responses: map<int, int>, n: nat)
    requires n <= |qs|
    requires forall i :: 0 <= i < n ==> IsCorrect(qs, responses, i)
    ensures CountCorrect(qs, responses, n) == n
  {
    if n > 0 {
      AllCorrectFullScore(qs, responses, n - 1);
    }
  }

  // ---------------------------------------------------------------------
  // The state machine

  /** The persisted outcome of a submission. */
  datatype TestResult = TestResult(score: nat, total: nat, breaches: nat)

  /** The test view's state. `effectResponses`/`effectBreaches` are the values
      the timer effect's closure saw when it was last set up. */
  datatype TestState = TestState(
    questions: seq<Question>,
    currentIndex: int,
    responses: map<int, int>,
    timeLeft: int,
    submitted: bool,
    score: nat,
    breaches: nat,
    language: Language,
    result: Option<TestResult>,
    effectResponses: map<int, int>,
    effectBreaches: nat)

  /** Opening a test (`activeTest.duration || 600` seconds). */
  function Start(questions: seq<Question>, duration: nat): (s: TestState)
    ensures duration > 0 ==> s.timeLeft == duration
    ensures duration == 0 ==> s.timeLeft == DefaultSeconds
    ensures !s.submitted && s.responses == map[] && s.breaches == 0
    ensures s.currentIndex == 0 && s.language == En
    ensures s.questions == questions && s.score == 0 && s.result == None
    ensures s.effectResponses == map[] && s.effectBreaches == 0
    ensures Valid(s)
  {
    TestState(questions, 0, map[], if duration == 0 then DefaultSeconds else duration,
              false, 0, 0, En, None, map[], 0)
  }

  /** `handleOptionSelect`: records the choice for the current question until submission. */
  function Select(s: TestState, opt: int): (r: TestState)
    ensures s.submitted ==> r == s
    ensures !s.submitted ==> r == s.(responses := s.responses[s.currentIndex := opt])
  {
    if s.submitted then s else s.(responses := s.responses[s.currentIndex := opt])
  }

  /** `handleSubmit` from the button: score the current answers and record the outcome. */
  function Submit(s: TestState): (r: TestState)
    ensures s.submitted ==> r == s
    ensures !s.submitted ==>
              && r.submitted && r.score == Score(s.questions, s.responses)
              && r.result == Some(TestResult(r.score, |s.questions|, s.breaches))
              && r.responses == s.responses && r.timeLeft == s.timeLeft && r.breaches == s.breaches
    ensures !s.submitted ==> r == s.(submitted := true, score := r.score, result := r.result)
  {
    if s.submitted then s
    else
      var sc := Score(s.questions, s.responses);
      s.(submitted := true, score := sc, result := Some(TestResult(sc, |s.questions|, s.breaches)))
  }

  /** One second of the countdown; reaching zero (from one or below) submits the
      current answers. */
  function Tick(s: TestState): (r: TestState)
    ensures s.submitted ==> r == s
    ensures !s.submitted && s.timeLeft <= 1 ==> r == Submit(s).(timeLeft := 0)
    ensures !s.submitted && s.timeLeft > 1 ==> r == s.(timeLeft := s.timeLeft - 1)
  {
    if s.submitted then s
    else if s.timeLeft <= 1 then Submit(s).(timeLeft := 0)
    else s.(timeLeft := s.timeLeft - 1)
  }

  /** The countdown as the source runs it: at expiry the submit closure captured
      by the timer effect scores the answers and breaches it saw at set-up. */
  function TickAsWritten(s: TestState): (r: TestState)
    ensures s.submitted ==> r == s
    ensures !s.submitted && s.timeLeft <= 1 ==>
              && r.submitted && r.timeLeft == 0 && r.score == Score(s.questions, s.effectResponses)
              && r.result == Some(TestResult(r.score, |s.questions|, s.effectBreaches))
              && r == s.(timeLeft := 0, submitted := true, score := r.score, result := r.result)
    ensures !s.submitted && s.timeLeft > 1 ==> r == s.(timeLeft := s.timeLeft - 1)
  {
    if s.submitted then s
    else if s.timeLeft <= 1 then
      var sc := Score(s.questions, s.effectResponses);
      s.(timeLeft := 0, submitted := true, score := sc, result := Some(TestResult(sc, |s.questions|, s.effectBreaches)))
    else s.(timeLeft := s.timeLeft - 1)
  }

  /** The timer effect is set up again (a re-render of the parent view hands over a
      new profile reference); its closure then sees the current answers. */
  function Resubscribe(s: TestState): (r: TestState)
    ensures s.submitted ==> r == s
    ensures !s.submitted ==> r.effectResponses == s.responses && r.effectBreaches == s.breaches
    ensures !s.submitted ==> r == s.(effectResponses := r.effectResponses, effectBreaches := r.effectBreaches)
  {
    if s.submitted then s else s.(effectResponses := s.responses, effectBreaches := s.breaches)
  }

  /** Losing visibility before submission counts a breach and costs five points;
      the countdown keeps running. */
  function Hidden(s: TestState): (r: (TestState, int))
    ensures s.submitted ==> r == (s, 0)
    ensures !s.submitted ==> r.0 == s.(breaches := s.breaches + 1) && r.1 == BreachPenalty
  {
    if s.submitted then (s, 0) else (s.(breaches := s.breaches + 1), BreachPenalty)
  }

  /** "Previous": `max(0, i - 1)`. */
  function Prev(s: TestState): (r: TestState)
    ensures r.currentIndex == if s.currentIndex - 1 >= 0 then s.currentIndex - 1 else 0
    ensures 0 <= s.currentIndex < |s.questions| ==> 0 <= r.currentIndex < |s.questions|
    ensures r == s.(currentIndex := r.currentIndex)
  {
    s.(currentIndex := if s.currentIndex - 1 >= 0 then s.currentIndex - 1 else 0)
  }

  /** "Save & Next": `min(|questions| - 1, i + 1)`. */
  function Next(s: TestState): (r: TestState)
    ensures r.currentIndex == if s.currentIndex + 1 <= |s.questions| - 1 then s.currentIndex + 1 else |s.questions| - 1
    ensures 0 <= s.currentIndex < |s.questions| ==> 0 <= r.currentIndex < |s.questions|
    ensures r == s.(currentIndex := r.currentIndex)
  {
    var last := |s.questions| - 1;
    s.(currentIndex := if s.currentIndex + 1 <= last then s.currentIndex + 1 else last)
  }

  /** The language switch, shown only before submission. */
  function ToggleLanguage(s: TestState): (r: TestState)
    ensures s.submitted ==> r == s
    ensures !s.submitted ==> r.language != s.language && r == s.(language := r.language)
  {
    if s.submitted then s else s.(language := if s.language == En then Hi else En)
  }

  datatype Event = Choose(opt: int) | Second | Hide | Press | Back | Forward | Goto(index: nat) | Language | Rerender

  /** One event as the source handles it; returns the new state and the
      discipline-score change. A second of the countdown runs the closure the
      timer effect captured (`TickAsWritten`). */
  function Step(s: TestState, e: Event): (r: (TestState, int))
    ensures s.submitted ==>
              && r.0.responses == s.responses && r.0.score == s.score && r.0.result == s.result
              && r.0.breaches == s.breaches && r.0.timeLeft == s.timeLeft && r.0.submitted && r.1 == 0
    ensures Valid(s) ==> Valid(r.0)
  {
    match e
    case Choose(opt) => (Select(s, opt), 0)
    case Second => (TickAsWritten(s), 0)
    case Hide => Hidden(s)
    case Press => (Submit(s), 0)
    case Back => (Prev(s), 0)
    case Forward => (Next(s), 0)
    case Goto(i) => (if i < |s.questions| then s.(currentIndex := i) else s, 0)
    case Language => (ToggleLanguage(s), 0)
    case Rerender => (Resubscribe(s), 0)
  }

  // ---------------------------------------------------------------------
  // Traces

  /** Applies events in order, summing the score changes. */
  function Run(s: TestState, es: seq<Event>): (TestState, int)
    decreases |es|
  {
    if es == [] then (s, 0)
    else
      var (s1, d1) := Step(s, es[0]);
      var (s2, d2) := Run(s1, es[1..]);
      (s2, d1 + d2)
  }

  /** Once submitted, no sequence of events changes the answers, the score, the
      recorded outcome, the breaches or the remaining time, and no points move. */
  lemma {:induction false} SubmittedIsFinal(s: TestState, es: seq<Event>)
    requires s.submitted
    ensures var (r, d) := Run(s, es);
      && r.submitted && r.responses == s.responses && r.score == s.score && r.result == s.result
      && r.breaches == s.breaches && r.timeLeft == s.timeLeft && d == 0
    decreases |es|
  {
    if es != [] {
      SubmittedIsFinal(Step(s, es[0]).0, es[1..]);
    }
  }

  /** What every reachable state satisfies: time never negative, and with at least
      one question the current index stays on a question. */
  predicate Valid(s: TestState) {
    && s.timeLeft >= 0
    && (|s.questions| > 0 ==> 0 <= s.currentIndex < |s.questions|)
  }

  /** Every run from a fresh test stays valid. */
  lemma {:induction false} RunKeepsValid(s: TestState, es: seq<Event>)
    requires Valid(s)
    ensures Valid(Run(s, es).0)
    decreases |es|
  {
    if es != [] {
      RunKeepsValid(Step(s, es[0]).0, es[1..]);
    }
  }

  /** `n` seconds of the countdown. */
  function Ticks(s: TestState, n: nat): TestState
    decreases n
  {
    if n == 0 then s else Ticks(Tick(s), n - 1)
  }

  /** A running test with `t` seconds left is still open after fewer than `t`
      seconds and is submitted, with its current answers, after exactly `t`. */
  lemma {:induction false} CountdownSubmits(s: TestState, n: nat)
    requires !s.submitted && s.timeLeft >= 1 && n <= s.timeLeft
    ensures n < s.timeLeft ==> !Ticks(s, n).submitted && Ticks(s, n).timeLeft == s.timeLeft - n
    ensures n == s.timeLeft ==>
              && Ticks(s, n).submitted && Ticks(s, n).timeLeft == 0
              && Ticks(s, n).score == Score(s.questions, s.responses)
    decreases n
  {
    if n > 0 {
      if s.timeLeft == 1 {
        assert Ticks(s, n) == Ticks(Tick(s), 0);
      } else {
        CountdownSubmits(Tick(s), n - 1);
      }
    }
  }

  /** Selecting an option changes exactly the current question's answer. */
  lemma SelectOnlyCurrent(s: TestState, opt: int, i: int)
    requires !s.submitted
    ensures Answer(Select(s, opt).responses, i) == if i == s.currentIndex then Some(opt) else Answer(s.responses, i)
  {
  }

  /** Two questions with correct indices 2 and 1, answered 2 and 0, score 1. */
  lemma TwoQuestionExample(q0: Question, q1: Question)
    requires q0.correctIndex == Some(2) && q1.correctIndex == Some(1)
    ensures Score([q0, q1], map[0 := 2, 1 := 0]) == 1
  {
    var qs, resp := [q0, q1], map[0 := 2, 1 := 0];
    assert IsCorrect(qs, resp, 0);
    assert CountCorrect(qs, resp, 1) == 1;
    assert !IsCorrect(qs, resp, 1);
  }

  /** An unanswered question without a correct index counts as correct. */
  lemma MissingIndexScores(q: Question)
    requires q.correctIndex == None
    ensures Score([q], map[]) == 1
  {
    assert IsCorrect([q], map[], 0);
  }

  /** With the closure refreshed, the as-written countdown agrees with the corrected one. */
  lemma FreshClosureAgrees(s: TestState)
    requires s.effectResponses == s.responses && s.effectBreaches == s.breaches
    ensures TickAsWritten(s) == Tick(s)
  {
  }

  /** The auto-submit as written loses an answer given after the timer effect was
      set up: a one-question test answered correctly, expiring with no re-render
      since it started, scores 0 instead of 1. */
  lemma StaleAutoSubmit(q: Question)
    requires q.correctIndex == Some(0)
    ensures var s := Select(Start([q], 1), 0);
      && TickAsWritten(s).score == 0
      && Tick(s).score == 1
  {
    var s := Select(Start([q], 1), 0);
    assert !IsCorrect([q], s.effectResponses, 0);
    assert IsCorrect([q], s.responses, 0);
  }
}

=== FILE: vocab.dfy ===
/** The vocabulary history: a new batch is put before the saved history and
    entries whose lower-cased word occurred earlier are dropped. */
module Vocab {
  import opened Js

  /** One generated word (`type` is renamed `kind`). */
  datatype Entry = Entry(word: string, hindi: string, kind: string, meaning: string)

  /** Entries are compared by their lower-cased word. */
  function Key(e: Entry): string {
    Lower(e.word)
  }

  /** The lower-cased words of a list. */
  ghost function Keys(a: seq<Entry>): set<string> {
    set i | 0 <= i < |a| :: Key(a[i])
  }

  /** No two entries share a lower-cased word. */
  ghost predicate DistinctKeys(a: seq<Entry>) {
    forall i, j :: 0 <= i < j < |a| ==> Key(a[i]) != Key(a[j])
  }

  /** `findIndex` by lower-cased word: the first index holding key `k`, or -1. */
  function FindIndex(a: seq<Entry>, k: string): (r: int)
    ensures -1 <= r < |a|
    ensures r >= 0 ==> Key(a[r]) == k && forall j :: 0 <= j < r ==> Key(a[j]) != k
    ensures r == -1 <==> k !in Keys(a)
  {
    if a == [] then -1
    else if Key(a[0]) == k then 0
    else
      var j := FindIndex(a[1..], k);
      KeysCons(a);
      if j < 0 then -1 else j + 1
  }

  /** The `filter` callback: keep the entry at `i` when it is the first with its word. */
  predicate KeepAt(a: seq<Entry>, i: nat)
    requires i < |a|
  {
    FindIndex(a, Key(a[i])) == i
  }

  /** The filter applied to the entries from index `i` on. */
  function FilterFrom(a: seq<Entry>, i: nat): seq<Entry>
    requires i <= |a|
    decreases |a| - i
  {
    if i == |a| then [] else (if KeepAt(a, i) then [a[i]] else []) + FilterFrom(a, i + 1)
  }

  /** The history de-duplication. */
  function Dedup(a: seq<Entry>): seq<Entry> {
    FilterFrom(a, 0)
  }

  /** Merging a fetched batch into the history. */
  function Merge(batch: seq<Entry>, history: seq<Entry>): seq<Entry> {
    Dedup(batch + history)
  }

  // ---------------------------------------------------------------------
  // A reference definition: one pass remembering the words already seen.

  /** Scan `a`, dropping entries whose word is in `seen` or occurred earlier in `a`. */
  function DedupSeen(a: seq<Entry>, seen: set<string>): (r: seq<Entry>)
    ensures |r| <= |a|
  {
    if a == [] then []
    else if Key(a[0]) in seen then DedupSeen(a[1..], seen)
    else [a[0]] + DedupSeen(a[1..], seen + {Key(a[0])})
  }

  /** The scan's result has distinct words, none of them in `seen`; its words are
      exactly those of `a` outside `seen`; and each kept entry is the first of `a`
      with its word. */
  lemma {:induction false} ScanProperties(a: seq<Entry>, seen: set<string>)
    ensures var r := DedupSeen(a, seen);
      && (forall i :: 0 <= i < |r| ==> Key(r[i]) !in seen)
      && DistinctKeys(r)
      && Keys(r) == Keys(a) - seen
      && (forall i :: 0 <= i < |r| ==> 0 <= FindIndex(a, Key(r[i])) && r[i] == a[FindIndex(a, Key(r[i]))])
  {
    if a != [] {
      KeysCons(a);
      if Key(a[0]) in seen {
        ScanProperties(a[1..], seen);
        FirstIndexCons(a, DedupSeen(a[1..], seen));
      } else {
        var t := DedupSeen(a[1..], seen + {Key(a[0])});
        ScanProperties(a[1..], seen + {Key(a[0])});
        var r := [a[0]] + t;
        assert r == DedupSeen(a, seen);
        KeysCons(r);
        assert r[1..] == t;
        FirstIndexCons(a, t);
        forall i | 0 <= i < |r| ensures 0 <= FindIndex(a, Key(r[i])) && r[i] == a[FindIndex(a, Key(r[i]))] {
          if i > 0 { assert r[i] == t[i - 1]; }
        }
        forall i, j | 0 <= i < j < |r| ensures Key(r[i]) != Key(r[j]) {
          assert r[j] == t[j - 1];
          if i > 0 { assert r[i] == t[i - 1]; }
        }
      }
    }
  }

  lemma KeysCons(a: seq<Entry>)
    requires a != []
    ensures Keys(a) == {Key(a[0])} + Keys(a[1..])
  {
    forall x | x in Keys(a) ensures x in {Key(a[0])} + Keys(a[1..]) {
      var i :| 0 <= i < |a| && Key(a[i]) == x;
      if i > 0 { assert a[1..][i - 1] == a[i]; }
    }
    forall x | x in Keys(a[1..]) ensures x in Keys(a) {
      var i :| 0 <= i < |a[1..]| && Key(a[1..][i]) == x;
      assert a[i + 1] == a[1..][i];
    }
  }

  /** An entry that is the first with its word in `a[1..]`, with a word other than
      `a[0]`'s, is the first with its word in `a`. */
  lemma FirstIndexCons(a: seq<Entry>, r: seq<Entry>)
    requires a != []
    requires forall i :: 0 <= i < |r| ==> Key(r[i]) != Key(a[0])
    requires forall i :: 0 <= i < |r| ==> 0 <= FindIndex(a[1..], Key(r[i])) && r[i] == a[1..][FindIndex(a[1..], Key(r[i]))]
    ensures forall i :: 0 <= i < |r| ==> 0 <= FindIndex(a, Key(r[i])) && r[i] == a[FindIndex(a, Key(r[i]))]
  {
  }

  /** The words of a prefix. */
  lemma KeysSnoc(a: seq<Entry>, i: nat)
    requires i < |a|
    ensures Keys(a[..i + 1]) == Keys(a[..i]) + {Key(a[i])}
  {
    var p, q := a[..i], a[..i + 1];
    forall x | x in Keys(q) ensures x in Keys(p) + {Key(a[i])} {
      var j :| 0 <= j < |q| && Key(q[j]) == x;
      if j < i { assert q[j] == p[j]; }
    }
    forall x | x in Keys(p) ensures x in Keys(q) {
      var j :| 0 <= j < |p| && Key(p[j]) == x;
      assert q[j] == p[j];
    }
  }

  /** The filter keeps index `i` exactly when its word is not among the earlier ones. */
  lemma KeepAtIff(a: seq<Entry>, i: nat)
    requires i < |a|
    ensures KeepAt(a, i) <==> Key(a[i]) !in Keys(a[..i])
  {
    var k := Key(a[i]);
    var f := FindIndex(a, k);
    if k in Keys(a[..i]) {
      var j :| 0 <= j < i && Key(a[..i][j]) == k;
      assert Key(a[j]) == k;
    } else {
      forall j | 0 <= j < i ensures Key(a[j]) != k {
        assert a[..i][j] == a[j];
      }
    }
  }

  /** The filter from index `i` is the reference scan of the rest, having seen the prefix. */
  lemma {:induction false} FilterIsScan(a: seq<Entry>, i: nat)
    requires i <= |a|
    ensures FilterFrom(a, i) == DedupSeen(a[i..], Keys(a[..i]))
    decreases |a| - i
  {
    if i < |a| {
      FilterIsScan(a, i + 1);
      KeepAtIff(a, i);
      KeysSnoc(a, i);
      var b, seen := a[i..], Keys(a[..i]);
      assert b[0] == a[i];
      assert b[1..] == a[i + 1..];
      if Key(a[i]) in seen {
        assert Keys(a[..i + 1]) == seen;
        assert FilterFrom(a, i) == FilterFrom(a, i + 1);
        assert DedupSeen(b, seen) == DedupSeen(a[i + 1..], seen);
      } else {
        assert DedupSeen(b, seen) == [a[i]] + DedupSeen(a[i + 1..], seen + {Key(a[i])});
      }
    }
  }

  /** The source's filter and the reference scan agree. */
  lemma DedupIsScan(a: seq<Entry>)
    ensures Dedup(a) == DedupSeen(a, {})
  {
    FilterIsScan(a, 0);
    assert a[..0] == [];
    assert a[0..] == a;
    assert Keys([]) == {};
  }

  // ---------------------------------------------------------------------
  // Properties of the de-duplicated history

  /** No two entries of the result share a lower-cased word, every input word is
      still present, and each kept entry is the first input entry with its word. */
  lemma DedupProperties(a: seq<Entry>)
    ensures DistinctKeys(Dedup(a))
    ensures Keys(Dedup(a)) == Keys(a)
    ensures forall i :: 0 <= i < |Dedup(a)| ==> Dedup(a)[i] == a[FindIndex(a, Key(Dedup(a)[i]))]
  {
    DedupIsScan(a);
    ScanProperties(a, {});
  }

  /** Entries appear in the order of their words' first occurrences. */
  lemma {:induction false} FilterKeepsOrder(a: seq<Entry>, i: nat)
    requires i <= |a|
    ensures forall x, y :: 0 <= x < y < |FilterFrom(a, i)| ==>
              i <= FindIndex(a, Key(FilterFrom(a, i)[x])) < FindIndex(a, Key(FilterFrom(a, i)[y]))
    decreases |a| - i
  {
    if i < |a| {
      FilterKeepsOrder(a, i + 1);
      var t := FilterFrom(a, i + 1);
      FilterFrom_Indices(a, i + 1);
      if KeepAt(a, i) {
        var r := FilterFrom(a, i);
        assert r == [a[i]] + t;
        forall x, y | 0 <= x < y < |r|
          ensures i <= FindIndex(a, Key(r[x])) < FindIndex(a, Key(r[y]))
        {
          assert r[y] == t[y - 1];
          if x > 0 { assert r[x] == t[x - 1]; }
        }
      } else {
        assert FilterFrom(a, i) == t;
      }
    } else {
      FilterFrom_Indices(a, i);
    }
  }

  /** Every entry of the filter from `i` is the first with its word, at an index `>= i`. */
  lemma {:induction false} FilterFrom_Indices(a: seq<Entry>, i: nat)
    requires i <= |a|
    ensures forall x :: 0 <= x < |FilterFrom(a, i)| ==>
              var f := FindIndex(a, Key(FilterFrom(a, i)[x]));
              i <= f && FilterFrom(a, i)[x] == a[f]
    decreases |a| - i
  {
    if i < |a| {
      FilterFrom_Indices(a, i + 1);
      var t := FilterFrom(a, i + 1);
      var r := FilterFrom(a, i);
      forall x | 0 <= x < |r|
        ensures var f := FindIndex(a, Key(r[x])); i <= f && r[x] == a[f]
      {
        if KeepAt(a, i) {
          if x > 0 { assert r[x] == t[x - 1]; }
        } else {
          assert r == t;
        }
      }
    }
  }

  /** The result has exactly as many entries as distinct lower-cased words. */
  lemma {:induction false} DistinctLength(a: seq<Entry>)
    requires DistinctKeys(a)
    ensures |Keys(a)| == |a|
  {
    if a != [] {
      KeysCons(a);
      DistinctLength(a[1..]);
      assert Key(a[0]) !in Keys(a[1..]);
    }
  }

  lemma DedupLength(a: seq<Entry>)
    ensures |Dedup(a)| == |Keys(a)| <= |a|
  {
    DedupProperties(a);
    DistinctLength(Dedup(a));
    KeysBound(a);
  }

  lemma {:induction false} KeysBound(a: seq<Entry>)
    ensures |Keys(a)| <= |a|
  {
    if a != [] {
      KeysCons(a);
      KeysBound(a[1..]);
    }
  }

  /** A list with distinct words is left unchanged. */
  lemma {:induction false} DistinctIsFixed(a: seq<Entry>, seen: set<string>)
    requires DistinctKeys(a)
    requires forall i :: 0 <= i < |a| ==> Key(a[i]) !in seen
    ensures DedupSeen(a, seen) == a
  {
    if a != [] {
      DistinctIsFixed(a[1..], seen + {Key(a[0])});
      assert a == [a[0]] + a[1..];
    }
  }

  /** Applying the de-duplication twice changes nothing. */
  lemma DedupIdempotent(a: seq<Entry>)
    ensures Dedup(Dedup(a)) == Dedup(a)
  {
    var d := Dedup(a);
    DedupProperties(a);
    DedupIsScan(d);
    DistinctIsFixed(d, {});
  }

  /** Scanning a concatenation is scanning the front, then the back having seen the front. */
  lemma {:induction false} ScanAppend(a: seq<Entry>, b: seq<Entry>, seen: set<string>)
    ensures DedupSeen(a + b, seen) == DedupSeen(a, seen) + DedupSeen(b, seen + Keys(a))
  {
    if a == [] {
      assert a + b == b;
      assert Keys(a) == {};
      assert seen + Keys(a) == seen;
    } else {
      KeysCons(a);
      ScanAppendStep(a, b, seen);
      var s' := if Key(a[0]) in seen then seen else seen + {Key(a[0])};
      ScanAppend(a[1..], b, s');
      assert s' + Keys(a[1..]) == seen + Keys(a);
    }
  }

  /** One step of the scan over a concatenation. */
  lemma ScanAppendStep(a: seq<Entry>, b: seq<Entry>, seen: set<string>)
    requires a != []
    ensures var s' := if Key(a[0]) in seen then seen else seen + {Key(a[0])};
      var front := if Key(a[0]) in seen then [] else [a[0]];
      && DedupSeen(a + b, seen) == front + DedupSeen(a[1..] + b, s')
      && DedupSeen(a, seen) == front + DedupSeen(a[1..], s')
  {
    assert (a + b)[0] == a[0];
    assert (a + b)[1..] == a[1..] + b;
  }

  /** The merged history starts with the de-duplicated batch, followed by the
      history entries whose words the batch does not contain. */
  lemma MergeBatchFirst(batch: seq<Entry>, history: seq<Entry>)
    ensures Merge(batch, history) == Dedup(batch) + DedupSeen(history, Keys(batch))
    ensures forall i :: 0 <= i < |Merge(batch, history)| && Key(Merge(batch, history)[i]) in Keys(batch) ==>
              Merge(batch, history)[i] == batch[FindIndex(batch, Key(Merge(batch, history)[i]))]
  {
    DedupIsScan(batch + history);
    DedupIsScan(batch);
    ScanAppend(batch, history, {});
    assert {} + Keys(batch) == Keys(batch);
    var d, t := Dedup(batch), DedupSeen(history, Keys(batch));
    var m := Merge(batch, history);
    DedupProperties(batch);
    ScanProperties(history, Keys(batch));
    assert m == d + t;
    forall i | 0 <= i < |d| ensures m[i] == d[i] { }
    forall i | |d| <= i < |m| ensures m[i] == t[i - |d|] && Key(m[i]) !in Keys(batch) { }
  }

  /** Adding a word already present, in any letter case, does not lengthen the history. */
  lemma RepeatedWordKeepsLength(e: Entry, history: seq<Entry>)
    requires Key(e) in Keys(history)
    ensures |Merge([e], history)| == |Dedup(history)|
  {
    DedupLength([e] + history);
    DedupLength(history);
    KeysCons([e] + history);
    assert ([e] + history)[1..] == history;
    assert Keys([e] + history) == Keys(history);
    assert Merge([e], history) == Dedup([e] + history);
  }

  /** The revision test lasts one minute per word and at least five minutes. */
  function RevisionSeconds(words: nat): (r: nat)
    ensures r >= 300 && r >= 60 * words
    ensures r == 300 || r == 60 * words
  {
    if 300 >= words * 60 then 300 else words * 60
  }
}

=== FILE: youtube.dfy ===
/** `getYoutubeId`: the fixed-shape recogniser of pasted video links. The
    pattern is anchored at both ends and is applied to the trimmed input:

      optional `http://` or `https://`, optional `www.` or `m.`, then
      `youtu.be/` or `youtube.com/` followed by one of `embed/`, `v/`,
      `watch?v=`, `watch?<anything>&v=`, `shorts/`, `live/`; then the
      11-character id of `[A-Za-z0-9_-]`; then optionally `?` or `&` and
      any text without a line break.

    The optional prefixes start with different letters from what may follow
    them, so backtracking never revisits them; only `watch?.+&v=` has a
    choice, and its greedy `.+` makes the LAST workable `&v=` win. The
    alternatives are tried in the order written. */
module YouTube {
  import opened Js

  const IdLength: nat := 11

  predicate IsIdChar(c: char) {
    ('A' <= c <= 'Z') || ('a' <= c <= 'z') || ('0' <= c <= '9') || c == '_' || c == '-'
  }

  predicate IsId(s: string) {
    |s| == IdLength && forall k :: 0 <= k < |s| ==> IsIdChar(s[k])
  }

  /** `(?:[?&].*)?$`: nothing, or a `?`/`&` query without a line break. */
  predicate IsQueryTail(t: string) {
    t == [] || ((t[0] == '?' || t[0] == '&') && NoLineTerminator(t[1..]))
  }

  /** A non-empty query that can be appended to a link. */
  predicate IsQuery(q: string) {
    |q| > 0 && IsQueryTail(q)
  }

  /** `([\w-]{11})(?:[?&].*)?$` matched at the start of `t`. */
  function IdAt(t: string): (r: Option<string>)
    ensures r.Some? ==> |t| >= IdLength && IsId(r.value) && t == r.value + t[IdLength..] && IsQueryTail(t[IdLength..])
  {
    if |t| >= IdLength && IsId(t[..IdLength]) && IsQueryTail(t[IdLength..]) then Some(t[..IdLength]) else None
  }

  /** `&v=` starts at position `m` of `u`. */
  predicate AmpVAt(u: string, m: nat) {
    m + 3 <= |u| && u[m] == '&' && u[m + 1] == 'v' && u[m + 2] == '='
  }

  predicate NoAmpV(q: string) {
    forall m: nat :: m < |q| ==> !AmpVAt(q, m)
  }

  /** `.+&v=` followed by the id, trying the split points `k` from the right. */
  function WatchSearch(u: string, k: nat): (r: Option<string>)
    requires k <= |u|
    ensures r.Some? ==> IsId(r.value) && |u| >= 15
    decreases k
  {
    if k == 0 then None
    else if NoLineTerminator(u[..k]) && AmpVAt(u, k) && IdAt(u[k + 3..]).Some? then IdAt(u[k + 3..])
    else WatchSearch(u, k - 1)
  }

  /** The path alternatives after `youtube.com/`, in the pattern's order. */
  function ComPath(t: string): (r: Option<string>)
    ensures r.Some? ==> IsId(r.value) && |t| >= 13
  {
    if StartsWith(t, "embed/") && IdAt(t[6..]).Some? then IdAt(t[6..])
    else if StartsWith(t, "v/") && IdAt(t[2..]).Some? then IdAt(t[2..])
    else if StartsWith(t, "watch?v=") && IdAt(t[8..]).Some? then IdAt(t[8..])
    else if StartsWith(t, "watch?") && WatchSearch(t[6..], |t| - 6).Some? then WatchSearch(t[6..], |t| - 6)
    else if StartsWith(t, "shorts/") && IdAt(t[7..]).Some? then IdAt(t[7..])
    else if StartsWith(t, "live/") then IdAt(t[5..])
    else None
  }

  /** `youtu.be/` or `youtube.com/…`. */
  function HostPath(t: string): (r: Option<string>)
    ensures r.Some? ==> IsId(r.value) && |t| >= 20
  {
    if StartsWith(t, "youtu.be/") then IdAt(t[9..])
    else if StartsWith(t, "youtube.com/") then ComPath(t[12..])
    else None
  }

  /** `(?:https?:\/\/)?` */
  function StripScheme(s: string): (r: string)
    ensures |r| <= |s|
  {
    if StartsWith(s, "https://") then s[8..] else if StartsWith(s, "http://") then s[7..] else s
  }

  /** `(?:www\.|m\.)?` */
  function StripSubdomain(s: string): (r: string)
    ensures |r| <= |s|
  {
    if StartsWith(s, "www.") then s[4..] else if StartsWith(s, "m.") then s[2..] else s
  }

  /** The anchored pattern applied to an already trimmed string. */
  function MatchLink(s: string): (r: Option<string>)
    ensures r.Some? ==> IsId(r.value) && |s| >= 20
  {
    HostPath(StripSubdomain(StripScheme(s)))
  }

  /** `getYoutubeId`: empty input gives no id; otherwise the pattern on the trimmed input. */
  function GetYoutubeId(url: string): (r: Option<string>)
    ensures r.Some? ==> IsId(r.value)
    ensures AllSpace(url) ==> r == None
  {
    if url == "" then None else MatchLink(Trim(url))
  }

  /** Surrounding whitespace never changes the outcome. */
  lemma TrimInvariant(url: string)
    ensures GetYoutubeId(Trim(url)) == GetYoutubeId(url)
  {
    TrimIdempotent(url);
  }

  // ---------------------------------------------------------------------
  // The link shapes the pattern recognises.

  predicate IsScheme(p: string) {
    p == "" || p == "http://" || p == "https://"
  }

  predicate IsSubdomain(p: string) {
    p == "" || p == "www." || p == "m."
  }

  /** Short link, embed, old-style, watch, shorts and live paths. */
  predicate IsDirectPath(p: string) {
    || p == "youtu.be/" || p == "youtube.com/embed/" || p == "youtube.com/v/"
    || p == "youtube.com/watch?v=" || p == "youtube.com/shorts/" || p == "youtube.com/live/"
  }

  lemma StripSchemeOf(sc: string, rest: string)
    requires IsScheme(sc)
    requires |rest| > 0 && (rest[0] == 'w' || rest[0] == 'm' || rest[0] == 'y')
    ensures StripScheme(sc + rest) == rest
  {
    var s := sc + rest;
    if sc == "" {
      assert s == rest;
      assert !StartsWith(s, "https://") by { assert s[0] != 'h'; }
      assert !StartsWith(s, "http://") by { assert s[0] != 'h'; }
    } else if sc == "http://" {
      assert s[..7] == sc;
      assert !StartsWith(s, "https://") by { assert s[4] == ':'; }
      assert s[7..] == rest;
    } else {
      assert s[..8] == sc;
      assert s[8..] == rest;
    }
  }

  lemma StripSubdomainOf(h: string, rest: string)
    requires IsSubdomain(h)
    requires |rest| > 0 && rest[0] == 'y'
    ensures StripSubdomain(h + rest) == rest
  {
    var s := h + rest;
    if h == "" {
      assert s == rest;
      assert !StartsWith(s, "www.") by { assert s[0] != 'w'; }
      assert !StartsWith(s, "m.") by { assert s[0] != 'm'; }
    } else if h == "www." {
      assert s[..4] == h;
      assert s[4..] == rest;
    } else {
      assert s[..2] == h;
      assert !StartsWith(s, "www.") by { assert s[0] != 'w'; }
      assert s[2..] == rest;
    }
  }

  lemma IdAtOf(id: string, q: string)
    requires IsId(id) && IsQueryTail(q)
    ensures IdAt(id + q) == Some(id)
  {
    var t := id + q;
    assert t[..IdLength] == id;
    assert t[IdLength..] == q;
  }

  predicate IsComPath(c: string) {
    c == "embed/" || c == "v/" || c == "watch?v=" || c == "shorts/" || c == "live/"
  }

  lemma ComPathOf(c: string, id: string, q: string)
    requires IsComPath(c) && IsId(id) && IsQueryTail(q)
    ensures ComPath(c + id + q) == Some(id)
  {
    var t := c + id + q;
    IdAtOf(id, q);
    assert t[..|c|] == c;
    assert t[|c|..] == id + q;
    if c != "embed/" {
      assert !StartsWith(t, "embed/") by { assert t[0] != 'e'; }
    }
    if c != "embed/" && c != "v/" {
      assert !StartsWith(t, "v/") by { assert t[0] != 'v'; }
    }
    if c == "shorts/" || c == "live/" {
      assert !StartsWith(t, "watch?") by { assert t[0] != 'w'; }
      assert !StartsWith(t, "watch?v=") by { assert t[0] != 'w'; }
    }
    if c == "live/" {
      assert !StartsWith(t, "shorts/") by { assert t[0] != 's'; }
    }
  }

  lemma DirectPathOf(p: string, id: string, q: string)
    requires IsDirectPath(p) && IsId(id) && IsQueryTail(q)
    ensures HostPath(p + id + q) == Some(id)
  {
    var t := p + id + q;
    if p == "youtu.be/" {
      IdAtOf(id, q);
      assert t[..9] == p;
      assert t[9..] == id + q;
    } else {
      var c := p[12..];
      assert p == "youtube.com/" + c;
      assert IsComPath(c);
      Regroup4("youtube.com/", c, id, q);
      assert t == "youtube.com/" + (c + id + q);
      assert t[..12] == "youtube.com/";
      assert !StartsWith(t, "youtu.be/") by { assert t[5] == 'b'; }
      assert t[12..] == c + id + q;
      ComPathOf(c, id, q);
    }
  }

  lemma DirectPathStart(p: string)
    requires IsDirectPath(p)
    ensures |p| > 0 && p[0] == 'y'
  {
  }

  // Pure regrouping of concatenations. Kept as separate lemmas so that the
  // larger link proofs do not have to search for associativity themselves.

  lemma Regroup4(a: string, b: string, c: string, d: string)
    ensures (a + b) + c + d == a + (b + c + d)
  {
    assert (a + b) + c + d == a + (b + c + d);
  }

  lemma Regroup(a: string, b: string, c: string, d: string, e: string)
    ensures a + b + c + d + e == a + b + (c + d + e)
  {
    assert a + b + c + d + e == a + b + (c + d + e);
  }

  lemma Regroup7(a: string, b: string, c: string, d: string, e: string, f: string, g: string)
    ensures a + b + c + d + e + f + g == a + b + (c + d + e + f + g)
  {
    assert a + b + c + d + e + f + g == a + b + (c + d + e + f + g);
  }

  lemma SplitWatch(params: string, id: string, q: string)
    ensures "youtube.com/watch?" + params + "&v=" + id + q == "youtube.com/" + ("watch?" + params + "&v=" + id + q)
  {
    assert "youtube.com/watch?" == "youtube.com/" + "watch?";
  }

  /** The optional scheme and subdomain are stripped before the host. */
  lemma LinkPrefixes(sc: string, h: string, tail: string)
    requires IsScheme(sc) && IsSubdomain(h) && |tail| > 0 && tail[0] == 'y'
    ensures MatchLink(sc + h + tail) == HostPath(tail)
  {
    StripSubdomainOf(h, tail);
    var ht := h + tail;
    assert ht[0] == 'w' || ht[0] == 'm' || ht[0] == 'y' by {
      if h == "" { assert ht[0] == tail[0]; } else { assert ht[0] == h[0]; }
    }
    StripSchemeOf(sc, ht);
    assert sc + h + tail == sc + ht;
  }

  /** A link built from a scheme, subdomain and host path is already trimmed. */
  lemma LinkTrimmed(sc: string, h: string, tail: string)
    requires IsScheme(sc) && IsSubdomain(h) && |tail| > 0 && tail[0] == 'y' && !IsSpace(tail[|tail| - 1])
    ensures Trim(sc + h + tail) == sc + h + tail
  {
    var s := sc + h + tail;
    var pre := sc + h;
    assert s == pre + tail;
    assert !IsSpace(s[0]) by {
      if pre == [] { assert s[0] == tail[0]; } else { assert s[0] == pre[0]; }
    }
    assert s[|s| - 1] == tail[|tail| - 1];
    TrimmedIsFixed(s);
  }

  /** Every direct link shape, with or without scheme and `www.`/`m.`, and
      with or without a trailing query, yields exactly its id. */
  lemma DirectLinkRecognised(sc: string, h: string, p: string, id: string, q: string)
    requires IsScheme(sc) && IsSubdomain(h) && IsDirectPath(p) && IsId(id) && IsQueryTail(q)
    requires q == [] || !IsSpace(q[|q| - 1])
    ensures GetYoutubeId(sc + h + p + id + q) == Some(id)
  {
    var tail := p + id + q;
    DirectPathOf(p, id, q);
    DirectPathStart(p);
    assert tail[0] == p[0];
    assert !IsSpace(tail[|tail| - 1]) by {
      if q == [] { assert tail[|tail| - 1] == id[IdLength - 1]; } else { assert tail[|tail| - 1] == q[|q| - 1]; }
    }
    LinkPrefixes(sc, h, tail);
    LinkTrimmed(sc, h, tail);
    Regroup(sc, h, p, id, q);
  }

  // ---------------------------------------------------------------------
  // The `watch?<parameters>&v=<id>` shape: the last workable `&v=` wins.

  /** `WatchSearch` skips split points that are not followed by `&v=`. */
  lemma {:induction false} WatchSearchSkip(u: string, j: nat, k: nat)
    requires j <= k <= |u|
    requires forall m: nat :: j < m <= k ==> !AmpVAt(u, m)
    ensures WatchSearch(u, k) == WatchSearch(u, j)
    decreases k
  {
    if k > j {
      WatchSearchSkip(u, j, k - 1);
    }
  }

  /** The same for a whole watch link with parameters before `&v=`, with or
      without a trailing query that holds no further `&v=`. The query must not
      end in whitespace only because the link is taken as already trimmed;
      `TrimInvariant` covers surrounding whitespace. Parameters that
      start with `v=` are left to `FirstWatchParamWins`: there the earlier
      `watch?v=` alternative matches first. */
  lemma WatchLinkRecognised(sc: string, h: string, params: string, id: string, q: string)
    requires IsScheme(sc) && IsSubdomain(h)
    requires |params| > 0 && !StartsWith(params, "v=") && NoLineTerminator(params)
    requires IsId(id) && IsQueryTail(q) && NoAmpV(q) && (q == [] || !IsSpace(q[|q| - 1]))
    ensures GetYoutubeId(sc + h + "youtube.com/watch?" + params + "&v=" + id + q) == Some(id)
  {
    var w := "watch?" + params + "&v=" + id + q;
    var tail := "youtube.com/watch?" + params + "&v=" + id + q;
    SplitWatch(params, id, q);
    WatchParamsRecognised(params, id, q);
    assert tail[..12] == "youtube.com/" && tail[12..] == w;
    assert !StartsWith(tail, "youtu.be/") by { assert tail[5] == 'b'; }
    assert HostPath(tail) == Some(id);
    assert !IsSpace(tail[|tail| - 1]) by {
      if q == [] { assert tail[|tail| - 1] == id[IdLength - 1]; } else { assert tail[|tail| - 1] == q[|q| - 1]; }
    }
    LinkPrefixes(sc, h, tail);
    LinkTrimmed(sc, h, tail);
    Regroup7(sc, h, "youtube.com/watch?", params, "&v=", id, q);
  }

  lemma IdAtOfWatch(params: string, id: string, q: string)
    requires IsId(id) && IsQueryTail(q)
    ensures var u := params + "&v=" + id + q; |params| + 3 <= |u| && u[|params| + 3..] == id + q
  {
    var u := params + "&v=" + id + q;
    assert u == params + ("&v=" + (id + q));
  }

  /** A watch link whose parameters (not starting with `v=`) precede a final
      `&v=<id>` yields that id, even when the parameters hold an earlier `&v=`. */
  lemma WatchParamsRecognised(params: string, id: string, q: string)
    requires |params| > 0 && !StartsWith(params, "v=") && NoLineTerminator(params)
    requires IsId(id) && IsQueryTail(q) && NoAmpV(q)
    ensures ComPath("watch?" + params + "&v=" + id + q) == Some(id)
  {
    var u := params + "&v=" + id + q;
    var t := "watch?" + params + "&v=" + id + q;
    assert t[..6] == "watch?";
    assert t[6..] == u;
    assert !StartsWith(t, "embed/") by { assert t[0] != 'e'; }
    assert !StartsWith(t, "v/") by { assert t[0] != 'v'; }
    assert !StartsWith(t, "watch?v=") by {
      assert t[6] == params[0];
      if |params| == 1 { assert t[7] == '&'; } else { assert t[7] == params[1]; }
    }
    WatchTailSearch(params, id, q);
    assert |t| - 6 == |u|;
  }

  lemma WatchTailSearch(params: string, id: string, q: string)
    requires |params| > 0 && NoLineTerminator(params)
    requires IsId(id) && IsQueryTail(q) && NoAmpV(q)
    ensures var u := params + "&v=" + id + q; WatchSearch(u, |u|) == Some(id)
  {
    var u := params + "&v=" + id + q;
    var k := |params|;
    IdAtOfWatch(params, id, q);
    IdAtOf(id, q);
    assert u[..k] == params;
    assert AmpVAt(u, k);
    NoAmpVAfter(params, id, q);
    WatchSearchSkip(u, k, |u|);
  }

  lemma NoAmpVAfter(params: string, id: string, q: string)
    requires IsId(id) && NoAmpV(q)
    ensures var u := params + "&v=" + id + q;
      forall m: nat :: |params| < m <= |u| ==> !AmpVAt(u, m)
  {
    var u := params + "&v=" + id + q;
    var k := |params|;
    forall m: nat | k < m <= |u|
      ensures !AmpVAt(u, m)
    {
      if m < k + 3 {
        assert u[m] == "&v="[m - k];
      } else if m < k + 3 + IdLength {
        assert u[m] == id[m - k - 3];
      } else if m + 3 <= |u| {
        var m' := m - (k + 3 + IdLength);
        assert u[m] == q[m'] && u[m + 1] == q[m' + 1] && u[m + 2] == q[m' + 2];
        assert !AmpVAt(q, m');
      }
    }
  }

  // ---------------------------------------------------------------------
  // Appending a query to a recognised link keeps its id.

  lemma NoLineTerminatorAppend(a: string, b: string)
    ensures NoLineTerminator(a + b) <==> NoLineTerminator(a) && NoLineTerminator(b)
  {
    if NoLineTerminator(a) && NoLineTerminator(b) {
      forall k | 0 <= k < |a + b| ensures !IsLineTerminator((a + b)[k]) {
        if k >= |a| { assert (a + b)[k] == b[k - |a|]; }
      }
    }
    if NoLineTerminator(a + b) {
      forall k | 0 <= k < |a| ensures !IsLineTerminator(a[k]) {
        assert (a + b)[k] == a[k];
      }
      forall k | 0 <= k < |b| ensures !IsLineTerminator(b[k]) {
        assert (a + b)[|a| + k] == b[k];
      }
    }
  }

  lemma StartsWithAppend(s: string, q: string, p: string)
    requires |p| <= |s|
    ensures StartsWith(s + q, p) == StartsWith(s, p)
    ensures (s + q)[|p|..] == s[|p|..] + q
  {
    assert (s + q)[..|p|] == s[..|p|];
  }

  lemma IdAtAppend(t: string, q: string)
    requires IsQuery(q)
    ensures IdAt(t + q) == IdAt(t)
  {
    var tq := t + q;
    if |t| >= IdLength {
      assert tq[..IdLength] == t[..IdLength];
      var x := t[IdLength..];
      assert tq[IdLength..] == x + q;
      if x == [] {
        assert x + q == q;
      } else {
        assert (x + q)[1..] == x[1..] + q;
        NoLineTerminatorAppend(x[1..], q);
        assert q == [q[0]] + q[1..];
        NoLineTerminatorAppend([q[0]], q[1..]);
        assert (x + q)[0] == x[0];
      }
    } else if |tq| >= IdLength {
      assert tq[..IdLength][|t|] == q[0];
    }
  }

  lemma {:induction false} WatchSearchAppend(u: string, q: string, k: nat)
    requires k <= |u| && IsQuery(q) && NoAmpV(q)
    ensures WatchSearch(u + q, k) == WatchSearch(u, k)
    decreases k
  {
    if k > 0 {
      var uq := u + q;
      assert uq[..k] == u[..k];
      if k + 3 <= |u| {
        assert uq[k] == u[k] && uq[k + 1] == u[k + 1] && uq[k + 2] == u[k + 2];
        assert uq[k + 3..] == u[k + 3..] + q;
        IdAtAppend(u[k + 3..], q);
      } else {
        assert !AmpVAt(uq, k) by {
          if k == |u| {
            assert AmpVAt(uq, k) ==> AmpVAt(q, 0);
          } else {
            assert uq[|u|] == q[0];
          }
        }
      }
      WatchSearchAppend(u, q, k - 1);
    }
  }

  lemma WatchSearchAppendAll(u: string, q: string)
    requires IsQuery(q) && NoAmpV(q)
    ensures WatchSearch(u + q, |u + q|) == WatchSearch(u, |u|)
  {
    var uq := u + q;
    forall m: nat | |u| < m <= |uq|
      ensures !AmpVAt(uq, m)
    {
      var m' := m - |u|;
      if m + 3 <= |uq| {
        assert uq[m] == q[m'] && uq[m + 1] == q[m' + 1] && uq[m + 2] == q[m' + 2];
        assert !AmpVAt(q, m');
      }
    }
    WatchSearchSkip(uq, |u|, |uq|);
    WatchSearchAppend(u, q, |u|);
  }

  lemma ComPathAppend(t: string, q: string)
    requires |t| >= 8 && IsQuery(q) && NoAmpV(q)
    ensures ComPath(t + q) == ComPath(t)
  {
    StartsWithAppend(t, q, "embed/");
    StartsWithAppend(t, q, "v/");
    StartsWithAppend(t, q, "watch?v=");
    StartsWithAppend(t, q, "watch?");
    StartsWithAppend(t, q, "shorts/");
    StartsWithAppend(t, q, "live/");
    IdAtAppend(t[6..], q);
    IdAtAppend(t[2..], q);
    IdAtAppend(t[8..], q);
    IdAtAppend(t[7..], q);
    IdAtAppend(t[5..], q);
    WatchSearchAppendAll(t[6..], q);
    assert |t + q| - 6 == |t[6..] + q|;
  }

  lemma HostPathAppend(t: string, q: string)
    requires HostPath(t).Some? && IsQuery(q) && NoAmpV(q)
    ensures HostPath(t + q) == HostPath(t)
  {
    StartsWithAppend(t, q, "youtu.be/");
    StartsWithAppend(t, q, "youtube.com/");
    IdAtAppend(t[9..], q);
    if !StartsWith(t, "youtu.be/") {
      ComPathAppend(t[12..], q);
    }
  }

  lemma MatchLinkAppend(s: string, q: string)
    requires MatchLink(s).Some? && IsQuery(q) && NoAmpV(q)
    ensures MatchLink(s + q) == MatchLink(s)
  {
    StartsWithAppend(s, q, "https://");
    StartsWithAppend(s, q, "http://");
    var a := StripScheme(s);
    assert StripScheme(s + q) == a + q;
    assert |a| >= 20;
    StartsWithAppend(a, q, "www.");
    StartsWithAppend(a, q, "m.");
    var b := StripSubdomain(a);
    assert StripSubdomain(a + q) == b + q;
    HostPathAppend(b, q);
  }

  /** A trailing `?…` or `&…` query (without a line break, trailing space or
      a further `&v=`) appended to a recognised link leaves its id unchanged.
      The trailing-space proviso only keeps the result trimmed; `TrimInvariant`
      covers surrounding whitespace. */
  lemma QueryKeepsId(url: string, q: string)
    requires IsTrimmed(url) && GetYoutubeId(url).Some?
    requires IsQuery(q) && !IsSpace(q[|q| - 1]) && NoAmpV(q)
    ensures GetYoutubeId(url + q) == GetYoutubeId(url)
  {
    TrimmedIsFixed(url);
    MatchLinkAppend(url, q);
    var s := url + q;
    assert s[0] == url[0];
    assert s[|s| - 1] == q[|q| - 1];
    TrimmedIsFixed(s);
  }

  /** The no-`&v=` condition of `QueryKeepsId` is needed: on a watch link the
      greedy `.+&v=` lets a later `&v=<id>` in an appended query replace the id. */
  lemma LaterWatchParamWins(params: string, a: string, b: string)
    requires |params| > 0 && !StartsWith(params, "v=") && NoLineTerminator(params)
    requires IsId(a) && IsId(b)
    ensures var url := "youtube.com/watch?" + params + "&v=" + a;
      && GetYoutubeId(url) == Some(a)
      && GetYoutubeId(url + ("&v=" + b)) == Some(b)
  {
    WatchLinkRecognised("", "", params, a, "");
    DropEmpty("youtube.com/watch?", params, "&v=", a);
    var params' := params + "&v=" + a;
    ParamsWithId(params, a);
    WatchLinkRecognised("", "", params', b, "");
    LaterParamRegroup("youtube.com/watch?", params, "&v=", a, b);
  }

  /** Parameters that start with `v=<a>` meet the earlier `watch?v=`
      alternative, which wins over `watch?.+&v=`: a later `&v=<b>` in the
      query is ignored and the FIRST id is the result. */
  lemma FirstWatchParamWins(sc: string, h: string, a: string, b: string, q: string)
    requires IsScheme(sc) && IsSubdomain(h) && IsId(a) && IsId(b)
    requires IsQueryTail(q) && (q == [] || !IsSpace(q[|q| - 1]))
    ensures GetYoutubeId(sc + h + "youtube.com/watch?v=" + a + ("&v=" + b + q)) == Some(a)
  {
    var rest := "&v=" + b + q;
    assert NoLineTerminator(rest[1..]) by {
      var v := "v=";
      assert NoLineTerminator(v) by {
        forall k | 0 <= k < |v| ensures !IsLineTerminator(v[k]) { }
      }
      assert NoLineTerminator(b) by {
        forall k | 0 <= k < |b| ensures !IsLineTerminator(b[k]) { assert IsIdChar(b[k]); }
      }
      assert NoLineTerminator(q) by {
        forall k | 0 <= k < |q| ensures !IsLineTerminator(q[k]) {
          if k > 0 { assert q[k] == q[1..][k - 1]; }
        }
      }
      NoLineTerminatorAppend(v, b);
      NoLineTerminatorAppend(v + b, q);
      assert rest[1..] == v + b + q;
    }
    assert !IsSpace(rest[|rest| - 1]) by {
      if q == [] { assert rest[|rest| - 1] == b[IdLength - 1]; } else { assert rest[|rest| - 1] == q[|q| - 1]; }
    }
    DirectLinkRecognised(sc, h, "youtube.com/watch?v=", a, rest);
  }

  lemma DropEmpty(w: string, p: string, v: string, a: string)
    ensures "" + "" + w + p + v + a + "" == w + p + v + a
  {
  }

  lemma LaterParamRegroup(w: string, p: string, v: string, a: string, b: string)
    ensures "" + "" + w + (p + v + a) + v + b + "" == w + p + v + a + (v + b)
  {
  }

  /** Parameters followed by `&v=<id>` are still parameters. */
  lemma ParamsWithId(params: string, a: string)
    requires |params| > 0 && !StartsWith(params, "v=") && NoLineTerminator(params) && IsId(a)
    ensures var p := params + "&v=" + a; |p| > 0 && !StartsWith(p, "v=") && NoLineTerminator(p)
  {
    var p := params + "&v=" + a;
    assert !StartsWith(p, "v=") by {
      assert p[0] == params[0];
      if |params| == 1 { assert p[1] == '&'; } else { assert p[1] == params[1]; }
    }
    var v := "&v=";
    assert NoLineTerminator(v) by {
      forall k | 0 <= k < |v| ensures !IsLineTerminator(v[k]) { }
    }
    assert NoLineTerminator(a) by {
      forall k | 0 <= k < |a| ensures !IsLineTerminator(a[k]) { assert IsIdChar(a[k]); }
    }
    NoLineTerminatorAppend(params, v);
    NoLineTerminatorAppend(params + v, a);
  }

  // ---------------------------------------------------------------------
  // Only the recognised shapes yield an id.

  /** `watch?<parameters>&v=` with non-empty parameters free of line breaks. */
  predicate IsWatchParams(c: string) {
    && |c| >= 10 && c[..6] == "watch?" && c[|c| - 3..] == "&v="
    && NoLineTerminator(c[6..|c| - 3])
  }

  /** `youtube.com/watch?<parameters>&v=`. */
  predicate IsWatchParamsPath(p: string) {
    |p| >= 12 && p[..12] == "youtube.com/" && IsWatchParams(p[12..])
  }

  lemma StartsWithSplit(s: string, p: string)
    requires StartsWith(s, p)
    ensures s == p + s[|p|..]
  {
    assert s == s[..|p|] + s[|p|..];
  }

  /** The scheme the pattern skipped. */
  lemma SchemeSplit(s: string) returns (sc: string)
    ensures IsScheme(sc) && s == sc + StripScheme(s)
  {
    if StartsWith(s, "https://") {
      sc := "https://";
      StartsWithSplit(s, sc);
    } else if StartsWith(s, "http://") {
      sc := "http://";
      StartsWithSplit(s, sc);
    } else {
      sc := "";
      assert s == sc + s;
    }
  }

  /** The subdomain the pattern skipped. */
  lemma SubdomainSplit(s: string) returns (h: string)
    ensures IsSubdomain(h) && s == h + StripSubdomain(s)
  {
    if StartsWith(s, "www.") {
      h := "www.";
      StartsWithSplit(s, h);
    } else if StartsWith(s, "m.") {
      h := "m.";
      StartsWithSplit(s, h);
    } else {
      h := "";
      assert s == h + s;
    }
  }

  /** A fixed prefix of length `n` followed by an id and its query. */
  lemma PrefixIdSplit(t: string, n: nat)
    requires n <= |t| && IdAt(t[n..]).Some?
    ensures t == t[..n] + IdAt(t[n..]).value + t[n..][IdLength..]
    ensures IsQueryTail(t[n..][IdLength..])
  {
    var r := t[n..];
    assert r == IdAt(r).value + r[IdLength..];
    assert t == t[..n] + r;
  }

  /** Where the `.+&v=` search succeeds: at a split point after non-empty parameters. */
  lemma {:induction false} WatchSearchSplit(u: string, k: nat) returns (j: nat)
    requires k <= |u| && WatchSearch(u, k).Some?
    ensures 1 <= j && j + 3 <= |u| && NoLineTerminator(u[..j]) && AmpVAt(u, j)
    ensures IdAt(u[j + 3..]) == WatchSearch(u, k)
    decreases k
  {
    if NoLineTerminator(u[..k]) && AmpVAt(u, k) && IdAt(u[k + 3..]).Some? {
      j := k;
    } else {
      j := WatchSearchSplit(u, k - 1);
    }
  }

  /** The watch search yields `watch?<parameters>&v=`, the id and a query. */
  lemma WatchSplit(t: string) returns (p: string, q: string)
    requires StartsWith(t, "watch?") && WatchSearch(t[6..], |t| - 6).Some?
    ensures t == p + WatchSearch(t[6..], |t| - 6).value + q
    ensures IsWatchParams(p) && IsQueryTail(q)
  {
    var u := t[6..];
    var j := WatchSearchSplit(u, |u|);
    var id := WatchSearch(u, |u|).value;
    PrefixIdSplit(u, j + 3);
    q := u[j + 3..][IdLength..];
    var params := u[..j];
    p := "watch?" + params + "&v=";
    assert u[..j + 3] == params + "&v=";
    StartsWithSplit(t, "watch?");
    assert t == "watch?" + u;
    assert u == (params + "&v=") + id + q;
    WatchRegroup(params, id, q);
    assert p[..6] == "watch?";
    assert p[|p| - 3..] == "&v=";
    assert p[6..|p| - 3] == params;
  }

  lemma WatchRegroup(params: string, id: string, q: string)
    ensures "watch?" + ((params + "&v=") + id + q) == ("watch?" + params + "&v=") + id + q
  {
  }

  /** A path after `youtube.com/` that yields an id is one of the path alternatives. */
  lemma ComPathSplit(t: string) returns (p: string, q: string)
    requires ComPath(t).Some?
    ensures t == p + ComPath(t).value + q && IsQueryTail(q)
    ensures IsComPath(p) || IsWatchParams(p)
  {
    var n: nat;
    if StartsWith(t, "embed/") && IdAt(t[6..]).Some? {
      n := 6;
    } else if StartsWith(t, "v/") && IdAt(t[2..]).Some? {
      n := 2;
    } else if StartsWith(t, "watch?v=") && IdAt(t[8..]).Some? {
      n := 8;
    } else if StartsWith(t, "watch?") && WatchSearch(t[6..], |t| - 6).Some? {
      p, q := WatchSplit(t);
      return;
    } else if StartsWith(t, "shorts/") && IdAt(t[7..]).Some? {
      n := 7;
    } else {
      n := 5;
    }
    PrefixIdSplit(t, n);
    p, q := t[..n], t[n..][IdLength..];
  }

  /** A host path that yields an id is a direct path or a watch path with parameters. */
  lemma HostPathSplit(t: string) returns (p: string, q: string)
    requires HostPath(t).Some?
    ensures t == p + HostPath(t).value + q && IsQueryTail(q)
    ensures IsDirectPath(p) || IsWatchParamsPath(p)
  {
    if StartsWith(t, "youtu.be/") {
      PrefixIdSplit(t, 9);
      p, q := t[..9], t[9..][IdLength..];
    } else {
      var c := t[12..];
      var id := ComPath(c).value;
      var p';
      p', q := ComPathSplit(c);
      p := "youtube.com/" + p';
      StartsWithSplit(t, "youtube.com/");
      HostRegroup(p', id, q);
      ComPathIsHostPath(p');
    }
  }

  lemma ComPathIsHostPath(c: string)
    requires IsComPath(c) || IsWatchParams(c)
    ensures IsDirectPath("youtube.com/" + c) || IsWatchParamsPath("youtube.com/" + c)
  {
    var p := "youtube.com/" + c;
    assert p[..12] == "youtube.com/" && p[12..] == c;
  }

  lemma HostRegroup(p: string, id: string, q: string)
    ensures "youtube.com/" + (p + id + q) == ("youtube.com/" + p) + id + q
  {
  }

  lemma LinkRegroup(sc: string, h: string, p: string, id: string, q: string)
    ensures sc + (h + (p + id + q)) == sc + h + p + id + q
  {
  }

  /** Every id comes from a recognised link: the trimmed input is an optional
      scheme, an optional `www.`/`m.`, a direct path or a watch path with
      parameters, the id, and an optional `?`/`&` query. Any other string gives none. */
  lemma GetYoutubeIdShape(url: string) returns (sc: string, h: string, p: string, q: string)
    requires GetYoutubeId(url).Some?
    ensures Trim(url) == sc + h + p + GetYoutubeId(url).value + q
    ensures IsScheme(sc) && IsSubdomain(h) && IsQueryTail(q)
    ensures IsDirectPath(p) || IsWatchParamsPath(p)
  {
    var t := Trim(url);
    var id := GetYoutubeId(url).value;
    sc := SchemeSplit(t);
    var s1 := StripScheme(t);
    h := SubdomainSplit(s1);
    var s2 := StripSubdomain(s1);
    p, q := HostPathSplit(s2);
    LinkRegroup(sc, h, p, id, q);
  }
}
